=== FILE: README.md ===
# Playback queue and audio synchronisation of a music-streaming client

This project is a Dafny model of the core of a React Native music client. It
covers the Redux player slice, the queue state machine, and the code that
keeps the audio engine in step with it. It also covers the small keyed
stores and pure helpers around them.

- **Player** (`src/store/usePlayerStore.ts`) models the queue reducer as pure
  functions over `PlayerState`. `Synced` is the intended invariant: the
  current song is `queue[queueIndex]`, with index 0 and no song when the
  queue is empty. **PlayerLemmas** proves that every safe run of actions
  keeps that invariant. It also proves the next/previous round trips and
  the toggle cycles, and it exposes where the reducer leaves `Synced`.
  **PlayerFixes** holds the findings below with their corrected variants.
- **Audio** (`src/services/AudioService.ts`) models the adapter. Its state
  is the one `sound`, `currentSongId` and `isInitialized`. It is modelled
  together with the store it dispatches to. The engine (expo-av) is
  abstract. Each call is logged as a `Call`, and an `Engine` value, chosen
  freely by the caller, says whether each kind of call succeeds.
- **Coordinator** (`src/hooks/useAudioPlayer.ts`) models the hook. Its two
  effects are step functions over the adapter, the store, and
  `lastSongIdRef`/`wasPlayingRef`. So are its five callbacks. Each step runs
  to completion. The model is one instance of the hook. **CoordinatorLemmas** holds the end-of-song scenarios, the
  failed-load behaviour and the adapter's consistency across steps.
- **Favorites**, **Playlists**, **Search** and **Theme** model the other
  slices. **Api** models `getBestImage`/`getBestDownloadUrl`. **Mappers**
  models the API-record mappers.
- **Common**, **Strings** and **Domain** are shared pieces. They hold
  JavaScript's `splice`/`filter`/`findIndex`, `trim` and `split(...)[0]`, and
  the domain records.

Two sources of nondeterminism are parameters:

- `Math.random()` is a real `rnd` in `[0, 1)`.
- The clock in the playlists store is passed as `now` (an ISO timestamp)
  and `id`.

The model follows what the code does, including where a caller might expect
otherwise:

- `setQueue` does not clamp its start index.
- `handleSongEnd` decides up front whether to advance, from the position
  and the repeat mode. It does not call `skipToNext` and then check for a
  no-op. So with shuffle on, the last song of a non-repeating queue stops
  playback.
- Under repeat-one the store's position is not reset. Only the engine
  seeks to 0, and the store learns the new position from the next status
  event.
- A failed play or pause leaves `isPlaying` untouched.
- No step resets `isPlaying` when the queue empties.
- A seek is passed to the engine without clamping.
- There is no staleness guard beyond `lastSongIdRef`.

## Model

| member | source | states |
|---|---|---|
| `Player.Initial` | src/store/usePlayerStore.ts:15-24 | The initial state has an empty queue, is synced, and is not playing. |
| `Player.SetIsPlaying` | src/store/usePlayerStore.ts:33-35 | Sets the transport flag and changes no other field, so the queue invariant holds afterwards exactly when it held before. |
| `Player.SetCurrentSong` | src/store/usePlayerStore.ts:30-32 | The given song becomes current and no other field changes. On a synced non-empty queue the result stays synced exactly when the song is the one at the index. |
| `Player.TogglePlaying` | src/store/usePlayerStore.ts:36-38 | Inverts the transport flag and changes no other field, so the queue invariant holds afterwards exactly when it held before. |
| `Player.SetPosition` | src/store/usePlayerStore.ts:39-41 | Records the position and changes no other field, so the queue invariant holds afterwards exactly when it held before. |
| `Player.SetDuration` | src/store/usePlayerStore.ts:42-44 | Records the duration and changes no other field, so the queue invariant holds afterwards exactly when it held before. |
| `Player.SetQueue` | src/store/usePlayerStore.ts:45-50 | Stores the new queue and the start index unclamped. The current song is the song at that index, or none outside the queue. The result is synced exactly when the index is inside the queue, or the queue is empty and the index is 0. |
| `Player.AddToQueue` | src/store/usePlayerStore.ts:51-53 | Appends the song and leaves the earlier songs, the index and the current song alone. It keeps the invariant for a non-empty queue. |
| `Player.PlayNext` | src/store/usePlayerStore.ts:54-56 | Adds exactly the one song to the queue. When the index is inside the queue, the song goes right after it. This holds on any state, including a queue with nothing current. Songs up to the index keep their places, the later ones move up one, and the index and current song are unchanged. On a synced non-empty queue the invariant is kept. |
| `Player.RemoveFromQueue` | src/store/usePlayerStore.ts:57-65 | An in-range index removes exactly that song and keeps the invariant. On a synced state: for an earlier song, the same song stays current one place lower; for a later song, nothing moves; for the current non-last song, its successor becomes current at the same index; for the current last song, the new last song becomes current, or nothing when the queue is empty; an index past the end changes nothing. On any state, a negative index removes nothing but still lowers the index. |
| `Player.ClearQueue` | src/store/usePlayerStore.ts:66-70 | Empties the queue, resets the index to 0 and clears the current song. It keeps isPlaying, shuffle, repeat and the position. |
| `Player.RandomIndex` | src/store/usePlayerStore.ts:75 | `floor(rnd * n)` for `rnd` in [0, 1) is a valid index of an n-song queue. |
| `Player.ShuffleReachesEveryIndex` | src/store/usePlayerStore.ts:74-75 | Under shuffle, every index, the current one included, is a possible outcome of skipToNext. |
| `Player.SkipToNext` | src/store/usePlayerStore.ts:71-86 | An empty queue is a no-op. Shuffle jumps to a valid index. Otherwise, whenever the index is below the last position (a negative index included), it moves to the next index and takes the song there, or none when that is still outside the queue. At or past the last position it wraps to 0 under repeat-all, and otherwise the whole state is unchanged. Every move rewinds, and the invariant is kept. |
| `Player.SkipToPrevious` | src/store/usePlayerStore.ts:87-97 | An empty queue is a no-op. Past 3000 ms only the position rewinds. Otherwise the index steps back, wrapping from 0 to the last song, the song at the new index (or none outside the queue) becomes current, and the position is 0. The invariant is kept. |
| `Player.SkipToIndex` | src/store/usePlayerStore.ts:98-105 | A valid index becomes current with its song and a rewound position. Any other index leaves the state unchanged. |
| `Player.ToggleShuffle` | src/store/usePlayerStore.ts:106-108 | Flips shuffle and changes nothing else. |
| `Player.ToggleRepeat` | src/store/usePlayerStore.ts:109-113 | Advances repeat to the next mode of off, one, all and changes nothing else. |
| `Player.ReorderQueue` | src/store/usePlayerStore.ts:114-127 | The new queue is a permutation of the old one. The song at the clamped `from` position sits at the clamped `to` position, and the other songs keep their order. The index becomes `to` when it was `from`. When both arguments are positions of the queue, the index still points at the song that was current, and the invariant is kept. |
| `PlayerFixes.ReorderOutsideQueueDesyncs` | src/store/usePlayerStore.ts:114-127 | On a synced two-song queue at index 0, `reorderQueue(0, 2)` and `reorderQueue(-2, 1)` both give `[b, a]`, with index 2 and -1 respectively, so neither result is synced. |
| `PlayerFixes.ReorderQueueClamped` | src/store/usePlayerStore.ts:114-127 | Feeding the clamped positions to the index rule gives the same queue, agrees with the reducer when both arguments are positions, and keeps the invariant for every argument pair. |
| `Player.MoveTracksIndex` | src/store/usePlayerStore.ts:119-126 | The three-case index adjustment lands on the position the previously current element moved to. |
| `PlayerLemmas.NextThenPrevious` | src/store/usePlayerStore.ts:71-97 | Without shuffle, a forward move followed by a back move returns to the original song. |
| `PlayerLemmas.PreviousThenNext` | src/store/usePlayerStore.ts:71-97 | Without shuffle and below the threshold, back then forward returns to the original song when forward can undo a wrap. |
| `PlayerLemmas.PreviousWrapsButNextDoesNot` | src/store/usePlayerStore.ts:71-97 | From the first of several songs with repeat not all, back wraps to the last song but forward then stays there. |
| `PlayerLemmas.PreviousScenario` | src/store/usePlayerStore.ts:87-97 | Starting at the middle of three songs, back reaches the first song, and back again wraps to the third. |
| `PlayerLemmas.ToggleShuffleInvolution` | src/store/usePlayerStore.ts:106-108 | Toggling shuffle twice is the identity. |
| `PlayerLemmas.ToggleRepeatCycle` | src/store/usePlayerStore.ts:109-113 | Repeat goes off to one, one to all, and all to off. Two toggles change the state, and three are the identity. |
| `PlayerLemmas.ApplyKeepsSynced` | src/store/usePlayerStore.ts:29-127 | Every reducer action in `Action`, one per reducer of the slice, keeps the queue invariant when it is used safely. Safe use means: setCurrentSong only with the song at the index; a setQueue start index inside the songs; adds only to a non-empty queue; a non-negative removal index; a draw in [0, 1); reorder indices inside the queue. Each unsafe use is shown to desync by `SetCurrentSongDesyncs`, `AddToEmptyQueueHasNoCurrentSong` and the findings below. |
| `PlayerLemmas.RunKeepsSynced` | src/store/usePlayerStore.ts:29-127 | Any run of safe actions from a synced state ends in a synced state. |
| `PlayerLemmas.ReachableFromInitialIsSynced` | src/store/usePlayerStore.ts:15-127 | Every state reached from the initial one by safe actions is synced. |
| `PlayerLemmas.AddToEmptyQueueHasNoCurrentSong` | src/store/usePlayerStore.ts:51-56 | Adding to an empty queue by either addToQueue or playNext leaves the song queued but nothing current. |
| `PlayerLemmas.SetCurrentSongDesyncs` | src/store/usePlayerStore.ts:30-32 | setCurrentSong leaves queue and index alone, so on a synced state any song other than the one at the index breaks the invariant. On an empty queue, any song at all breaks it. |
| `PlayerLemmas.EmptyQueueKeepsPlaying` | src/store/usePlayerStore.ts:57-70 | Removing the only song, or clearing the queue, leaves isPlaying true. |
| `PlayerFixes.NegativeRemoveDesyncs` | src/store/usePlayerStore.ts:57-65 | removeFromQueue(-1) on a one-song queue keeps the song but moves the index to -1 with no current song. |
| `PlayerFixes.RemoveFromQueueChecked` | src/store/usePlayerStore.ts:57-65 | With out-of-range indices ignored, removal keeps the invariant for every index and agrees with the reducer on valid ones. |
| `PlayerFixes.UnclampedStartDesyncs` | src/store/usePlayerStore.ts:45-50 | setQueue with one song and start index 1 leaves a non-empty queue with nothing current. |
| `PlayerFixes.AddToQueueChecked` | src/store/usePlayerStore.ts:51-53 | addToQueue that also makes the song current on an empty queue. It keeps the invariant on every synced state and agrees with the reducer on non-empty queues. |
| `PlayerFixes.PlayNextChecked` | src/store/usePlayerStore.ts:54-56 | playNext with the same correction. It keeps the invariant on every synced state and agrees with the reducer on non-empty queues. |
| `PlayerFixes.SetQueueClamped` | src/store/usePlayerStore.ts:45-50 | With the start index clamped into the queue, setQueue is always synced and agrees with the reducer on valid indices. |
| `Common.SpliceStart` | src/store/usePlayerStore.ts:55 | The start position `splice` uses lies within the sequence and is the requested one when that is in range. |
| `Common.InsertAt` | src/store/usePlayerStore.ts:55 | An insertion puts the new element at the position, keeps the others in order around it, and adds exactly that element. |
| `Common.RemoveAt` | src/store/useFavoritesStore.ts:29 | A one-element splice drops exactly the element at the position and keeps the others in order. |
| `Common.Filter` | src/store/useFavoritesStore.ts:23 | filter keeps exactly the elements passing the test and never adds one. When all pass, it is the identity. |
| `Common.FilterIsSubsequence` | src/store/useFavoritesStore.ts:23 | filter keeps the surviving elements in their original order. |
| `Common.FilterCounts` | src/store/useFavoritesStore.ts:23 | filter keeps every passing element exactly as often as it occurs in the input, and no failing one. |
| `Common.FilterKeepsDistinct` | src/store/usePlaylistsStore.ts:51 | Filtering a duplicate-free sequence leaves it duplicate-free. |
| `Common.MoveFrom` | src/store/usePlayerStore.ts:116 | The position `splice(from, 1)` removes from a non-empty list lies inside it and is `from` itself when that is not negative. |
| `Common.MoveTo` | src/store/usePlayerStore.ts:117 | The position `splice(to, 0, x)` inserts at, once one element is out, lies inside the original length and is `to` itself when that is a position. |
| `Common.Move` | src/store/usePlayerStore.ts:116-117 | The two-splice reorder yields a permutation with the moved element at `to` and the other elements in their old order. |
| `Common.FilterConcat` | src/store/useFavoritesStore.ts:23 | filter distributes over concatenation, so kept elements keep their order. |
| `Common.FirstIndex` | src/store/useFavoritesStore.ts:26 | findIndex yields the first matching position, or none exactly when nothing matches. |
| `Strings.Trim` | src/store/useSearchStore.ts:18 | The trimmed string is no longer than the input and has no white space at either end. White space here is ECMAScript's WhiteSpace and LineTerminator set. |
| `Strings.TrimIsSlice` | src/store/useSearchStore.ts:18 | The result is fully determined. If everything before `k` and from `m` on is white space, and `s[k..m]` is empty or starts and ends with a non-space, then trim returns exactly `s[k..m]`. |
| `Strings.TrimEmptyIff` | src/store/useSearchStore.ts:18-19 | A query trims to the empty string exactly when it is all white space, which is when the store ignores it. |
| `Strings.TrimDrawsFromInput` | src/store/useSearchStore.ts:18 | Every character of the trimmed string occurs in the input. |
| `Strings.TrimIdempotent` | src/store/useSearchStore.ts:18 | Trimming twice is trimming once. |
| `Strings.FirstSegment` | src/utils/mappers.ts:9 | The first split piece is a comma-free prefix of the input, followed by a comma or the end. |
| `Audio.Initialize` | src/services/AudioService.ts:16-32 | The audio mode is set at most until it succeeds. A failure leaves the adapter uninitialised for a retry. |
| `Audio.Unload` | src/services/AudioService.ts:142-152 | Always safe. Afterwards no sound is held, and for a consistent adapter no id either. With nothing loaded it is a no-op that makes no engine call. |
| `Audio.LoadSong` | src/services/AudioService.ts:74-102 | Reports success exactly when the song was already loaded or the engine created the sound. The call log is exact: the audio-mode call only while uninitialised, then, for an already-loaded song, nothing more. A new song adds one unload when a sound is held, then exactly one create. Success leaves a sound and the song's id. Failure returns false with nothing loaded. |
| `Audio.LoadTwiceCreatesOnce` | src/services/AudioService.ts:78-81 | After a successful load, loading the same id again succeeds with no unload and no create. |
| `Audio.Play` | src/services/AudioService.ts:104-112 | A no-op without a sound. Otherwise it makes one play call, and success sets isPlaying. A failure leaves the store untouched. |
| `Audio.Pause` | src/services/AudioService.ts:114-122 | A no-op without a sound. Otherwise it makes one pause call, and success clears isPlaying. A failure leaves the store untouched. |
| `Audio.TogglePlayPause` | src/services/AudioService.ts:124-131 | With a sound it calls pause exactly when the store is playing, and play otherwise. A success inverts the flag. |
| `Audio.SeekTo` | src/services/AudioService.ts:133-140 | Passes the position to the engine only when a sound is held, and never changes state. |
| `Audio.SongEndDecision` | src/services/AudioService.ts:58-72 | Replay exactly under repeat-one. Advance exactly when not repeat-one and there is a next index or the queue repeats. Otherwise stop. |
| `Audio.HandleSongEnd` | src/services/AudioService.ts:58-72 | Repeat-one seeks to 0 and plays with the index and song unchanged. Advance runs skipToNext. Stop clears isPlaying with queue and index unchanged. |
| `Audio.AdvanceMoves` | src/services/AudioService.ts:65-67 | On a synced, non-empty, non-shuffled queue, an advance always moves to the next index or wraps to 0. |
| `Audio.OnPlaybackStatusUpdate` | src/services/AudioService.ts:34-56 | A not-loaded status changes nothing. A loaded one copies any reported position and duration into the store. The song-end handling runs exactly when the song just finished without looping. |
| `Coordinator.LoadEffect` | src/hooks/useAudioPlayer.ts:19-42 | No current song unloads the adapter and forgets the last id. A new id with a url records the id and loads it. It plays exactly when the load succeeded and the store is playing. A failed load leaves the store unchanged. An unchanged id or empty url does nothing. |
| `Coordinator.EnsureLoaded` | src/hooks/useAudioPlayer.ts:49-56 | Loads only when the adapter holds another id. Otherwise it succeeds with no engine call. |
| `Coordinator.PlayStateEffect` | src/hooks/useAudioPlayer.ts:45-68 | Does nothing without a url, and aborts without recording the flag if the resync load fails. Otherwise it plays exactly on a false-to-true edge against wasPlayingRef and pauses exactly on a true-to-false edge, then records the flag. |
| `Coordinator.TogglePlayPause` | src/hooks/useAudioPlayer.ts:70-83 | A no-op without a url. It loads first when the adapter holds another id. A failed load leaves the transport untouched, and otherwise it is the adapter's toggle. |
| `Coordinator.SeekTo` | src/hooks/useAudioPlayer.ts:85-88 | The store's position becomes the requested one whether or not a sound is held. The engine is asked to seek only when one is. |
| `Coordinator.SkipToNext` | src/hooks/useAudioPlayer.ts:90-92 | A pure delegation to the store's skipToNext, with no engine call. |
| `Coordinator.SkipToPrevious` | src/hooks/useAudioPlayer.ts:94-101 | Past 3000 ms it seeks to 0 and keeps the index and song. Otherwise it delegates to the store's skipToPrevious. |
| `Coordinator.SkipToIndex` | src/hooks/useAudioPlayer.ts:103-105 | A pure delegation to the store's skipToIndex, with no engine call. |
| `CoordinatorLemmas.SongEndScenario` | src/services/AudioService.ts:34-72 | With three songs and repeat off, two finish reports move through the songs, and the third stops playback with queue and index kept. |
| `CoordinatorLemmas.RepeatOneScenario` | src/services/AudioService.ts:53-66 | Under repeat-one a finish report seeks to 0 and plays with the song kept. A looping report changes nothing. |
| `CoordinatorLemmas.ShuffleStopsAtLastIndex` | src/services/AudioService.ts:58-72 | With shuffle on and repeat off, the end of the last song stops playback instead of shuffling. |
| `CoordinatorLemmas.FailedLoadLeavesStore` | src/hooks/useAudioPlayer.ts:31-37 | A failed load of a new song keeps the store, song included. Nothing plays, no sound is held, and the id is still recorded. |
| `CoordinatorLemmas.SongChangeLoadsOnce` | src/hooks/useAudioPlayer.ts:19-68 | When the load effect's load has completed first, the play state effect for the same change neither creates nor unloads. The hook itself does not wait for that load; see the Left out line for this lemma. |
| `CoordinatorLemmas.StepsKeepAdapterConsistent` | src/services/AudioService.ts:74-152 | Every effect and callback keeps the adapter consistent: a sound is held exactly when an id is recorded. |
| `Favorites.AddToFavorites` | src/store/useFavoritesStore.ts:16-21 | A known id is a no-op. Otherwise a favorite-marked copy goes in front of the unchanged list. Ids stay unique. |
| `Favorites.RemoveFromFavorites` | src/store/useFavoritesStore.ts:22-24 | No entry with the id remains. Every other entry stays, in its original order and with its number of occurrences, and nothing new appears. An absent id changes nothing. |
| `Favorites.ToggleFavorite` | src/store/useFavoritesStore.ts:25-34 | Removes exactly the first entry with the id, or prepends a favorite copy when there is none. Unique ids are kept, and membership flips. |
| `Favorites.ToggleTwiceRestores` | src/store/useFavoritesStore.ts:25-34 | Toggling an absent song twice restores the list. |
| `Favorites.ClearFavorites` | src/store/useFavoritesStore.ts:35-37 | The result holds no song. |
| `Playlists.UpdateFirst` | src/store/usePlaylistsStore.ts:32-33 | Only the first playlist with the id is changed. An unknown id changes nothing. |
| `Playlists.CreatePlaylist` | src/store/usePlaylistsStore.ts:16-27 | Appends one empty playlist with the given name and description and equal timestamps. The existing playlists are untouched. |
| `Playlists.DeletePlaylist` | src/store/usePlaylistsStore.ts:28-30 | No playlist with the id remains. Every other one stays, in its original order and with its number of occurrences. |
| `Playlists.CreateThenDelete` | src/store/usePlaylistsStore.ts:16-30 | Deleting a just-created playlist with a fresh id restores the list in order. |
| `Playlists.RenamePlaylist` | src/store/usePlaylistsStore.ts:31-37 | Only the first matching playlist gets the new name and timestamp. An unknown id is a no-op. |
| `Playlists.WithSong` | src/store/usePlaylistsStore.ts:41-46 | A known song id leaves the playlist as is, timestamp included. Otherwise the song is appended. Unique ids are kept. |
| `Playlists.AddSongToPlaylist` | src/store/usePlaylistsStore.ts:38-47 | Only the first matching playlist changes, and no playlist gains a duplicate song id. |
| `Playlists.WithoutSong` | src/store/usePlaylistsStore.ts:51-52 | The playlist loses every song with the id. The other songs stay in order with their number of occurrences, and the playlist is stamped even when nothing was removed. |
| `Playlists.RemoveSongFromPlaylist` | src/store/usePlaylistsStore.ts:48-54 | Only the first playlist with the id changes, and it becomes the playlist without that song. An unknown playlist id changes nothing. |
| `Playlists.ReorderPlaylistSongs` | src/store/usePlaylistsStore.ts:55-63 | The matching playlist's songs are permuted. The song at the clamped `from` position sits at the clamped `to` position, and the others keep their order. The other playlists are unchanged, and an unknown id changes nothing. |
| `Playlists.ClearPlaylist` | src/store/usePlaylistsStore.ts:64-70 | Only the first matching playlist loses its songs. An unknown id is a no-op. |
| `Search.Initial` | src/store/useSearchStore.ts:8-11 | The initial history is empty and its maximum is 10. |
| `Search.Others` | src/store/useSearchStore.ts:22 | Removes the query and keeps every other entry, and distinct entries stay distinct. |
| `Search.OthersInOrder` | src/store/useSearchStore.ts:22 | The entries other than the query keep their order and their number of occurrences. |
| `Search.AddRecentSearch` | src/store/useSearchStore.ts:17-31 | A blank query is a no-op. Otherwise the trimmed query heads the list exactly once, the length stays within the maximum, the others follow in their old order, and only the oldest are dropped. A duplicate-free list stays duplicate-free. |
| `Search.PushRecent` | src/store/useSearchStore.ts:21-29 | The query heads the list exactly once, the length stays within the maximum, the other entries follow in their old order, and only the oldest are dropped. Distinct entries stay distinct. |
| `Search.PushTwiceIsPushOnce` | src/store/useSearchStore.ts:21-29 | Moving the same query to the front twice equals doing it once. |
| `Search.AddTwiceIsAddOnce` | src/store/useSearchStore.ts:17-31 | Adding the same query twice in a row equals adding it once. |
| `Search.RemoveRecentSearch` | src/store/useSearchStore.ts:32-34 | Removes every exact match, without trimming. Every other entry stays, in its original order and with its number of occurrences, and distinct lists stay distinct. |
| `Search.ClearRecentSearches` | src/store/useSearchStore.ts:35-37 | The list becomes empty and the maximum is kept. |
| `Theme.Initial` | src/store/useThemeStore.ts:9-12 | The initial state is light and satisfies isDark iff mode is dark. |
| `Theme.SetThemeMode` | src/store/useThemeStore.ts:18-21 | Sets the mode and keeps isDark iff mode is dark. |
| `Theme.ToggleTheme` | src/store/useThemeStore.ts:22-26 | Light goes to dark, and dark and system both go to light. It keeps the dark-flag invariant. |
| `Theme.ToggleTwice` | src/store/useThemeStore.ts:22-26 | Two toggles are the identity from light or dark but take system to dark. |
| `Api.LinkOf` | src/services/api.ts:83 | The link of the first entry of the quality, or "" when there is none. |
| `Api.BestLink` | src/services/api.ts:82-93 | The result is "" or the link of some entry, and "" for an empty list. It is the first preferred entry's link when non-empty, then the first fallback entry's, then the last entry's. |
| `Api.GetBestImage` | src/services/api.ts:82-86 | The same preference with 500x500, then 150x150, then the last image. |
| `Api.GetBestDownloadUrl` | src/services/api.ts:89-93 | The same preference with 320kbps, then 160kbps, then the last url. |
| `Api.EmptyFirstChoiceFallsThrough` | src/services/api.ts:83-85 | An empty link on the first 500x500 entry skips a later 500x500 entry that has a link. |
| `Mappers.FirstArtistId` | src/utils/mappers.ts:9 | Missing ids give "". Otherwise the result is the trimmed first comma-separated piece, with no white space at either end. |
| `Mappers.FirstArtistIdShape` | src/utils/mappers.ts:9 | The artist id contains no comma and only characters of the input, and a single clean id passes through unchanged. |
| `Mappers.FirstArtistIdTakesFirst` | src/utils/mappers.ts:9 | For `a + "," + b` with no comma in `a`, the result is the trimmed `a`, whatever `b` holds. |
| `Mappers.FirstArtistIdOfCleanList` | src/utils/mappers.ts:9 | A list starting with a clean id yields exactly that id. |
| `Mappers.MapApiSongToSong` | src/utils/mappers.ts:4-16 | Keeps the id, sets title from name and artist from primaryArtists, and takes the first artist id. Album fields default to "", duration to 0. Artwork and url are the best image and download link. |
| `Mappers.MapApiArtistToArtist` | src/utils/mappers.ts:18-27 | Keeps id and name, picks the best image, and zeroes the counts and total duration. |
| `Mappers.MapApiAlbumToAlbum` | src/utils/mappers.ts:29-39 | Keeps id, sets title and artist, takes the first artist id and best image, and defaults songCount to 0. |
| `Mappers.MapApiSongsToSongs` | src/utils/mappers.ts:41-43 | Same length, each element mapped in place. |
| `Mappers.MapApiArtistsToArtists` | src/utils/mappers.ts:45-47 | Same length, each element mapped in place. |
| `Mappers.MapApiAlbumsToAlbums` | src/utils/mappers.ts:49-51 | Same length, each element mapped in place. |

## Findings

| source | as written | input that shows it | evidently intended | confidence | as-written member | corrected member |
|---|---|---|---|---|---|---|
| src/store/usePlayerStore.ts:57-65 | An index outside the queue removes nothing, but a negative one still lowers `queueIndex`. | Queue `[a]`, index 0, `removeFromQueue(-1)` gives index -1 and no current song. | An index the filter ignores leaves the state alone. | low; the app's own callers pass list positions; not executed | `PlayerFixes.NegativeRemoveDesyncs` | `PlayerFixes.RemoveFromQueueChecked` |
| src/store/usePlayerStore.ts:45-50 | The start index is stored unclamped. | `setQueue([a], 1)` gives a non-empty queue with no current song. | The index is clamped into the new queue, so that a non-empty queue always has a current song. | low; callers pass list positions; not executed | `PlayerFixes.UnclampedStartDesyncs` | `PlayerFixes.SetQueueClamped` |
| src/store/usePlayerStore.ts:51-56 | `addToQueue` and `playNext` never set the current song, even on an empty queue. `src/components/common/SongOptionsSheet.tsx:68-69` reaches both from a song's options menu. | `addToQueue(a)` on the initial state gives queue `[a]` with nothing current. `playNext(a)` does the same. | The song added to an empty queue becomes current, so that a non-empty queue always has one. | low; the app may mean "queued, not selected"; not executed | `PlayerLemmas.AddToEmptyQueueHasNoCurrentSong` | `PlayerFixes.AddToQueueChecked` |
| src/store/usePlayerStore.ts:114-127 | Both splices clamp their start, but the index rule compares the raw `fromIndex` and `toIndex`. | Queue `[a, b]`, index 0: `reorderQueue(0, 2)` gives `[b, a]` with index 2, and `reorderQueue(-2, 1)` gives `[b, a]` with index -1. | The index follows the current song to wherever the splices put it. | low; no component calls it, and `src/hooks/usePlayer.ts:53` only forwards the arguments; not executed | `PlayerFixes.ReorderOutsideQueueDesyncs` | `PlayerFixes.ReorderQueueClamped` |

The rest of the model, `PlayerLemmas.Apply` included, uses the reducers as
written, and its `Safe` rule keeps their arguments to the inputs above that
keep the invariant. The corrected variants stand beside the reducers and
replace nothing. `PlayerFixes.PlayNextChecked` is the same correction for
`playNext`.

## Left out

- Engine internals (expo-av): buffering, decoding and audio-session setup are not modelled. Each engine call is reduced to success or failure. Failed unload and seek calls are only logged by the source, so the model does not branch on them.
- `positionUpdateInterval`, the console logging, and `getCurrentSongId`: a field the code never uses, output, and a plain accessor.
- Several hook instances: the app mounts `useAudioPlayer` in `src/components/player/MiniPlayer.tsx:20`, `src/screens/Player/PlayerScreen.tsx:42` and `src/screens/Queue/QueueScreen.tsx:23`. Each has its own `lastSongIdRef` and `wasPlayingRef`, and each one's effects fire on every store change. So a pause issues one `pause()` per mounted instance, and a newly mounted player screen starts with `wasPlayingRef` false and calls `play()` again. The model runs a single instance. Its per-step lemmas hold for each instance's steps, but nothing here counts the calls the instances make together.
- Async interleaving of effect and callback completions: every step runs to completion. The source has no staleness guard beyond `lastSongIdRef`. In `handleSongEnd`, `seekTo(0)` and `play()` are not awaited, and the model runs them in order.
- Coordinator.LoadEffect: reads `isPlaying` from the state it is given. In the source this is the value captured when the hook rendered. The two are the same because loading never changes the flag.
- Player.SkipToNext: `Math.random() * n` is real multiplication here, not IEEE-754 double arithmetic.
- Player.ReorderQueue: requires a non-empty queue and a `fromIndex` below its length. Otherwise `splice(fromIndex, 1)` removes nothing and the second splice inserts `undefined`, which this model's `seq<Song>` cannot hold. Any `toIndex` and any negative `fromIndex` are modelled.
- Playlists.ReorderPlaylistSongs: requires the matched playlist to have songs and a `fromIndex` below their number. Otherwise `undefined` would be inserted into its song list, which `seq<Song>` cannot hold. No component calls it; `src/hooks/usePlaylists.ts:29-30` only forwards the arguments.
- CoordinatorLemmas.SongChangeLoadsOnce: the hook does not actually load once. Both effects fire in the same commit, `loadAndPlay()` is not awaited, and `loadSong` first suspends at `await this.initialize()` (src/services/AudioService.ts:76). So the play state effect's check at src/hooks/useAudioPlayer.ts:49-56 still sees the old id and calls `loadSong` a second time. The lemma holds only for the run-to-completion order this model uses.
- JavaScript numbers are modelled as `int`. The code never relies on fractional or non-finite positions, durations or indices.
- Song `url?` and other optional strings are plain strings, with "" standing for "absent". The code only tests their truthiness.
- The fetch-based catalog functions in `src/services/api.ts`, JSON decoding, and catalog record fields the mappers never read.
- `mapApiAlbumToAlbum`'s `year`, which parses a string and falls back to the current year.
- The redux-persist wiring: it is storage configuration. It persists the whole player slice, so nothing resets `isPlaying` on restore.
- Screens, navigation, display formatting, the thin dispatch hooks, locale-aware sorting and the shuffle-by-sort in detail screens: these are presentation or randomness outside the core.

=== FILE: api.dfy ===
/**
 The two selection helpers of `src/services/api.ts`. Images and download urls
 are both lists of `{quality, link}` records; each helper prefers the first
 entry of one quality, then the first of a second quality, then the last
 entry, and an empty link counts as missing at every stage.
 */
module Api {
  import opened Common

  datatype QualityLink = QualityLink(quality: string, link: string)

  /** `xs[i]` is the entry `find(x => x.quality === q)` returns. */
  predicate FirstOfQuality(xs: seq<QualityLink>, q: string, i: int)
  {
    0 <= i < |xs| && xs[i].quality == q && forall j :: 0 <= j < i ==> xs[j].quality != q
  }

  /** The first entry of quality `q` exists and has a non-empty link. */
  predicate Usable(xs: seq<QualityLink>, q: string)
  {
    exists i :: 0 <= i < |xs| && FirstOfQuality(xs, q, i) && xs[i].link != ""
  }

  /** `find(x => x.quality === q)?.link`, with "" for a missing entry. */
  function LinkOf(xs: seq<QualityLink>, q: string): (r: string)
    ensures forall i :: FirstOfQuality(xs, q, i) ==> r == xs[i].link
    ensures (forall i :: 0 <= i < |xs| ==> xs[i].quality != q) ==> r == ""
    ensures r != "" <==> Usable(xs, q)
    ensures r == "" || exists i :: 0 <= i < |xs| && r == xs[i].link
  {
    match FirstIndex(xs, (x: QualityLink) => x.quality == q)
    case None => ""
    case Some(i) =>
      assert FirstOfQuality(xs, q, i);
      xs[i].link
  }

  /** `a?.link || b?.link || xs[xs.length - 1]?.link || ''`. */
  function BestLink(xs: seq<QualityLink>, preferred: string, fallback: string): (r: string)
    ensures |xs| == 0 ==> r == ""
    ensures r == "" || exists i :: 0 <= i < |xs| && r == xs[i].link
    ensures forall i :: FirstOfQuality(xs, preferred, i) && xs[i].link != "" ==> r == xs[i].link
    ensures !Usable(xs, preferred) ==>
      forall j :: FirstOfQuality(xs, fallback, j) && xs[j].link != "" ==> r == xs[j].link
    ensures !Usable(xs, preferred) && !Usable(xs, fallback) && |xs| > 0 ==> r == xs[|xs| - 1].link
  {
    var a := LinkOf(xs, preferred);
    var b := LinkOf(xs, fallback);
    if a != "" then a
    else if b != "" then b
    else if |xs| > 0 then xs[|xs| - 1].link
    else ""
  }

  /** `getBestImage(images)`: 500x500, then 150x150, then the last image. */
  function GetBestImage(images: seq<QualityLink>): (r: string)
    ensures |images| == 0 ==> r == ""
    ensures r == "" || exists i :: 0 <= i < |images| && r == images[i].link
    ensures forall i :: FirstOfQuality(images, "500x500", i) && images[i].link != "" ==> r == images[i].link
    ensures !Usable(images, "500x500") ==>
      forall j :: FirstOfQuality(images, "150x150", j) && images[j].link != "" ==> r == images[j].link
    ensures !Usable(images, "500x500") && !Usable(images, "150x150") && |images| > 0 ==>
      r == images[|images| - 1].link
  {
    BestLink(images, "500x500", "150x150")
  }

  /** `getBestDownloadUrl(urls)`: 320kbps, then 160kbps, then the last url. */
  function GetBestDownloadUrl(urls: seq<QualityLink>): (r: string)
    ensures |urls| == 0 ==> r == ""
    ensures r == "" || exists i :: 0 <= i < |urls| && r == urls[i].link
    ensures forall i :: FirstOfQuality(urls, "320kbps", i) && urls[i].link != "" ==> r == urls[i].link
    ensures !Usable(urls, "320kbps") ==>
      forall j :: FirstOfQuality(urls, "160kbps", j) && urls[j].link != "" ==> r == urls[j].link
    ensures !Usable(urls, "320kbps") && !Usable(urls, "160kbps") && |urls| > 0 ==>
      r == urls[|urls| - 1].link
  {
    BestLink(urls, "320kbps", "160kbps")
  }

  /** Only the first 500x500 entry is consulted: when its link is empty, a
      later 500x500 entry with a link is passed over for the last image. */
  lemma EmptyFirstChoiceFallsThrough()
    ensures GetBestImage([QualityLink("500x500", ""), QualityLink("500x500", "big"),
                          QualityLink("50x50", "small")]) == "small"
  {
    var xs := [QualityLink("500x500", ""), QualityLink("500x500", "big"), QualityLink("50x50", "small")];
    assert FirstOfQuality(xs, "500x500", 0);
    assert !Usable(xs, "500x500");
    assert !Usable(xs, "150x150");
  }
}

=== FILE: audio.dfy ===
/**
 The audio adapter (`AudioService` in `src/services/AudioService.ts`): the
 lifecycle of the one loaded sound and the store updates it dispatches.

 The audio engine is abstract. Each engine call is recorded in a `Call` log,
 and whether it succeeds is read from an `Engine` value that the caller
 chooses freely; one step of the adapter makes each kind of call at most
 once. Failed unload and seek calls are only logged by the source, so the
 model does not branch on them.
 */
module Audio {
  import opened Common
  import opened Domain
  import opened Player

  /** The engine's answer to each kind of call during one step. */
  datatype Engine = Engine(audioModeOk: bool, createOk: bool, playOk: bool, pauseOk: bool)

  datatype Call =
    | SetAudioMode
    | CreateSound(uri: string)
    | UnloadSound
    | PlaySound
    | PauseSound
    | SetSoundPosition(millis: int)

  /** A sound the engine created for a stream url. */
  datatype Sound = Sound(uri: string)

  datatype Adapter = Adapter(sound: Option<Sound>, currentSongId: Option<string>, isInitialized: bool)

  /** The adapter together with the store it dispatches to. */
  datatype Session = Session(adapter: Adapter, player: PlayerState)

  datatype Step = Step(session: Session, calls: seq<Call>)

  datatype Loaded = Loaded(adapter: Adapter, ok: bool, calls: seq<Call>)

  /** A sound is present exactly when a song id is recorded. */
  predicate Consistent(a: Adapter)
  {
    a.sound.Some? <==> a.currentSongId.Some?
  }

  function InitialAdapter(): (a: Adapter)
    ensures Consistent(a) && a.sound.None?
  {
    Adapter(None, None, false)
  }

  predicate Creates(calls: seq<Call>)
  {
    exists i :: 0 <= i < |calls| && calls[i].CreateSound?
  }

  /** `initialize()`: sets the audio mode once; a failure is logged and
      retried on the next call. */
  function Initialize(a: Adapter, e: Engine): (r: (Adapter, seq<Call>))
    ensures r.0.sound == a.sound && r.0.currentSongId == a.currentSongId
    ensures a.isInitialized ==> r.0 == a && r.1 == []
    ensures !a.isInitialized ==> r.1 == [SetAudioMode] && r.0.isInitialized == e.audioModeOk
  {
    if a.isInitialized then (a, []) else (a.(isInitialized := e.audioModeOk), [SetAudioMode])
  }

  /** `unload()`: always safe; releases the sound if there is one. */
  function Unload(a: Adapter): (r: (Adapter, seq<Call>))
    ensures r.0.sound.None? && r.0.isInitialized == a.isInitialized
    ensures Consistent(a) ==> r.0.currentSongId.None? && Consistent(r.0)
    ensures a.sound.None? ==> r.0 == a && r.1 == []
    ensures a.sound.Some? ==> r.0.currentSongId.None? && r.1 == [UnloadSound]
  {
    if a.sound.Some? then (a.(sound := None, currentSongId := None), [UnloadSound]) else (a, [])
  }

  /** The song `songId` is loaded already. */
  predicate AlreadyLoaded(a: Adapter, songId: string)
  {
    a.currentSongId == Some(songId) && a.sound.Some?
  }

  /** `loadSong(url, songId)`: nothing to do when the song is loaded;
      otherwise unload whatever is loaded and create a paused sound for
      `url`. A failed creation is caught and reported as `false`. */
  function LoadSong(a: Adapter, url: string, songId: string, e: Engine): (r: Loaded)
    ensures r.ok <==> AlreadyLoaded(a, songId) || e.createOk
    ensures AlreadyLoaded(a, songId) ==>
      r.adapter.sound == a.sound && r.adapter.currentSongId == a.currentSongId
      && UnloadSound !in r.calls && !Creates(r.calls)
    ensures r.ok ==> r.adapter.sound.Some? && r.adapter.currentSongId == Some(songId)
    ensures !AlreadyLoaded(a, songId) ==> CreateSound(url) in r.calls
    ensures !AlreadyLoaded(a, songId) && a.sound.Some? ==> UnloadSound in r.calls
    ensures AlreadyLoaded(a, songId) ==>
      r.calls == (if a.isInitialized then [] else [SetAudioMode])
    ensures !AlreadyLoaded(a, songId) ==>
      r.calls == (if a.isInitialized then [] else [SetAudioMode])
                 + (if a.sound.Some? then [UnloadSound] else []) + [CreateSound(url)]
    ensures !AlreadyLoaded(a, songId) && r.ok ==> r.adapter.sound == Some(Sound(url))
    ensures !r.ok ==> r.adapter.sound.None?
    ensures !r.ok && Consistent(a) ==> r.adapter.currentSongId.None?
    ensures Consistent(a) ==> Consistent(r.adapter)
  {
    var (a1, c1) := Initialize(a, e);
    if a1.currentSongId == Some(songId) && a1.sound.Some? then
      Loaded(a1, true, c1)
    else
      var (a2, c2) := Unload(a1);
      var calls := c1 + c2 + [CreateSound(url)];
      if e.createOk then
        Loaded(a2.(sound := Some(Sound(url)), currentSongId := Some(songId)), true, calls)
      else
        Loaded(a2, false, calls)
  }

  /** Loading the same song twice acquires it at most once: once the first
      load succeeded, the second creates nothing and unloads nothing. */
  lemma LoadTwiceCreatesOnce(a: Adapter, url: string, url2: string, songId: string, e1: Engine, e2: Engine)
    requires LoadSong(a, url, songId, e1).ok
    ensures var r := LoadSong(LoadSong(a, url, songId, e1).adapter, url2, songId, e2);
      r.ok && !Creates(r.calls) && UnloadSound !in r.calls
  {
  }

  /** `play()`: nothing without a sound; a successful play sets the store's
      flag, a failed one is only logged. */
  function Play(ss: Session, e: Engine): (r: Step)
    ensures r.session.adapter == ss.adapter && r.session.player.queue == ss.player.queue
    ensures ss.adapter.sound.None? ==> r.session == ss && r.calls == []
    ensures ss.adapter.sound.Some? ==> r.calls == [PlaySound]
    ensures ss.adapter.sound.Some? && e.playOk ==> r.session.player == SetIsPlaying(ss.player, true)
    ensures !e.playOk ==> r.session == ss
  {
    if ss.adapter.sound.None? then Step(ss, [])
    else if e.playOk then Step(ss.(player := SetIsPlaying(ss.player, true)), [PlaySound])
    else Step(ss, [PlaySound])
  }

  /** `pause()`: the mirror image of `play()`. */
  function Pause(ss: Session, e: Engine): (r: Step)
    ensures r.session.adapter == ss.adapter && r.session.player.queue == ss.player.queue
    ensures ss.adapter.sound.None? ==> r.session == ss && r.calls == []
    ensures ss.adapter.sound.Some? ==> r.calls == [PauseSound]
    ensures ss.adapter.sound.Some? && e.pauseOk ==> r.session.player == SetIsPlaying(ss.player, false)
    ensures !e.pauseOk ==> r.session == ss
  {
    if ss.adapter.sound.None? then Step(ss, [])
    else if e.pauseOk then Step(ss.(player := SetIsPlaying(ss.player, false)), [PauseSound])
    else Step(ss, [PauseSound])
  }

  /** `togglePlayPause()`: pauses exactly when the store says it is playing. */
  function TogglePlayPause(ss: Session, e: Engine): (r: Step)
    ensures r.session.adapter == ss.adapter
    ensures ss.adapter.sound.None? ==> r.session == ss && r.calls == []
    ensures ss.adapter.sound.Some? ==>
      r.calls == [if ss.player.isPlaying then PauseSound else PlaySound]
    ensures ss.adapter.sound.Some? && (if ss.player.isPlaying then e.pauseOk else e.playOk) ==>
      r.session.player.isPlaying == !ss.player.isPlaying
  {
    if ss.player.isPlaying then Pause(ss, e) else Play(ss, e)
  }

  /** `seekTo(positionMillis)`: passed to the engine when a sound is loaded;
      the store is not touched. */
  function SeekTo(ss: Session, p: int): (r: Step)
    ensures r.session == ss
    ensures r.calls == if ss.adapter.sound.Some? then [SetSoundPosition(p)] else []
  {
    if ss.adapter.sound.None? then Step(ss, []) else Step(ss, [SetSoundPosition(p)])
  }

  /** What the engine reports about the sound. */
  datatype Status =
    | NotLoaded(error: Option<string>)
    | LoadedStatus(positionMillis: Option<int>, durationMillis: Option<int>,
                   didJustFinish: bool, isLooping: bool)

  /** The three outcomes of `handleSongEnd`. */
  datatype SongEnd = RepeatSong | Advance | StopAtEnd

  /** The decision `handleSongEnd` takes from the store. */
  function SongEndDecision(p: PlayerState): (d: SongEnd)
    ensures d == RepeatSong <==> p.repeat == One
    ensures d == Advance <==>
      p.repeat != One && (p.queueIndex < |p.queue| - 1 || p.repeat == All)
  {
    if p.repeat == One then RepeatSong
    else if p.queueIndex < |p.queue| - 1 || p.repeat == All then Advance
    else StopAtEnd
  }

  /** `handleSongEnd()`: replay under repeat-one, else advance when there is
      a next song or the queue wraps, else stop. The decision ignores
      shuffle. */
  function HandleSongEnd(ss: Session, rnd: real, e: Engine): (r: Step)
    requires 0.0 <= rnd < 1.0
    ensures r.session.adapter == ss.adapter && r.session.player.queue == ss.player.queue
    ensures ss.player.repeat == One ==>
      r.session.player.queueIndex == ss.player.queueIndex
      && r.session.player.currentSong == ss.player.currentSong
      && r.calls == (if ss.adapter.sound.Some? then [SetSoundPosition(0), PlaySound] else [])
    ensures SongEndDecision(ss.player) == Advance ==>
      r.session.player == Player.SkipToNext(ss.player, rnd) && r.calls == []
    ensures SongEndDecision(ss.player) == StopAtEnd ==>
      r.session.player == SetIsPlaying(ss.player, false) && r.calls == []
  {
    match SongEndDecision(ss.player)
    case RepeatSong =>
      var s1 := SeekTo(ss, 0);
      var s2 := Play(s1.session, e);
      Step(s2.session, s1.calls + s2.calls)
    case Advance => Step(ss.(player := Player.SkipToNext(ss.player, rnd)), [])
    case StopAtEnd => Step(ss.(player := SetIsPlaying(ss.player, false)), [])
  }

  /** Advancing at the end of a song always moves on or wraps: for a synced,
      non-empty, non-shuffled queue the "nothing to skip to" case of
      `skipToNext` cannot arise there. */
  lemma AdvanceMoves(ss: Session, rnd: real, e: Engine)
    requires 0.0 <= rnd < 1.0
    requires Synced(ss.player) && !ss.player.shuffle && |ss.player.queue| > 0
    requires SongEndDecision(ss.player) == Advance
    ensures var p := HandleSongEnd(ss, rnd, e).session.player;
      p.currentPosition == 0
      && p.queueIndex == (if ss.player.queueIndex < |ss.player.queue| - 1 then ss.player.queueIndex + 1 else 0)
  {
  }

  /** `onPlaybackStatusUpdate(status)`: a not-loaded status changes nothing;
      a loaded one copies the reported position and duration into the store
      and, when the song just finished without looping, runs
      `handleSongEnd`. */
  function OnPlaybackStatusUpdate(ss: Session, st: Status, rnd: real, e: Engine): (r: Step)
    requires 0.0 <= rnd < 1.0
    ensures st.NotLoaded? ==> r.session == ss && r.calls == []
    ensures r.session.adapter == ss.adapter && r.session.player.queue == ss.player.queue
    ensures st.LoadedStatus? && st.durationMillis.Some? ==>
      r.session.player.duration == st.durationMillis.value
    ensures st.LoadedStatus? && st.durationMillis.None? ==>
      r.session.player.duration == ss.player.duration
    ensures st.LoadedStatus? && !(st.didJustFinish && !st.isLooping) ==>
      r.calls == [] && r.session.player == ss.player.(
        currentPosition := st.positionMillis.GetOr(ss.player.currentPosition),
        duration := st.durationMillis.GetOr(ss.player.duration))
    ensures st.LoadedStatus? && st.didJustFinish && !st.isLooping ==>
      r == HandleSongEnd(ss.(player := ss.player.(
        currentPosition := st.positionMillis.GetOr(ss.player.currentPosition),
        duration := st.durationMillis.GetOr(ss.player.duration))), rnd, e)
  {
    match st
    case NotLoaded(_) => Step(ss, [])
    case LoadedStatus(pos, dur, finished, looping) =>
      var p1 := if pos.Some? then SetPosition(ss.player, pos.value) else ss.player;
      var p2 := if dur.Some? then SetDuration(p1, dur.value) else p1;
      var ss1 := ss.(player := p2);
      if finished && !looping then HandleSongEnd(ss1, rnd, e) else Step(ss1, [])
  }
}

=== FILE: common.dfy ===
/**
 Building blocks shared by the stores: an optional value (JavaScript's
 `null`/`undefined`), the positions used by `Array.prototype.splice`, and the
 array methods `filter` and `findIndex` on immutable sequences.
 */
module Common {

  /** A value that may be absent; JavaScript's `null` and `undefined` are
      both `None`. */
  datatype Option<T> = None | Some(value: T)
  {
    /** The value, or `fallback` when it is absent (the source's `??` and
        `|| default` on optional fields). */
    function GetOr(fallback: T): T
    {
      if Some? then value else fallback
    }
  }

  /** Position at which `splice(start, ...)` acts on an array of length `len`:
      a negative start counts back from the end, and both ends are clamped. */
  function SpliceStart(start: int, len: nat): (k: nat)
    ensures k <= len
    ensures 0 <= start <= len ==> k == start
  {
    if start < 0 then (if len + start < 0 then 0 else len + start)
    else if start > len then len
    else start
  }

  /** The position `splice(from, 1)` removes from a non-empty list of length `n`. */
  function MoveFrom(from: int, n: nat): (k: nat)
    requires 0 < n && from < n
    ensures k < n
    ensures 0 <= from ==> k == from
  {
    SpliceStart(from, n)
  }

  /** The position `splice(to, 0, x)` inserts at once one of `n` elements is out. */
  function MoveTo(to: int, n: nat): (k: nat)
    requires 0 < n
    ensures k < n
    ensures 0 <= to < n ==> k == to
  {
    SpliceStart(to, n - 1)
  }

  /** `xs` with `x` inserted before position `i` (`splice(i, 0, x)`). */
  function InsertAt<T>(xs: seq<T>, i: nat, x: T): (r: seq<T>)
    requires i <= |xs|
    ensures |r| == |xs| + 1
    ensures r[i] == x
    ensures forall k :: 0 <= k < i ==> r[k] == xs[k]
    ensures forall k :: i < k < |r| ==> r[k] == xs[k - 1]
    ensures multiset(r) == multiset(xs) + multiset{x}
  {
    assert xs == xs[..i] + xs[i..];
    xs[..i] + [x] + xs[i..]
  }

  /** `xs` without the element at position `i` (`splice(i, 1)`). */
  function RemoveAt<T>(xs: seq<T>, i: nat): (r: seq<T>)
    requires i < |xs|
    ensures |r| == |xs| - 1
    ensures forall k :: 0 <= k < i ==> r[k] == xs[k]
    ensures forall k :: i <= k < |r| ==> r[k] == xs[k + 1]
    ensures multiset(r) + multiset{xs[i]} == multiset(xs)
  {
    assert xs == xs[..i] + [xs[i]] + xs[i + 1..];
    xs[..i] + xs[i + 1..]
  }

  /** The two-splice reorder `[x] = splice(from, 1); splice(to, 0, x)` with
      both positions valid: the element at `from` ends up at `to`, and the
      remaining elements keep their relative order. */
  function Move<T>(xs: seq<T>, from: nat, to: nat): (r: seq<T>)
    requires from < |xs| && to < |xs|
    ensures |r| == |xs|
    ensures multiset(r) == multiset(xs)
    ensures r[to] == xs[from]
    ensures RemoveAt(r, to) == RemoveAt(xs, from)
  {
    var rest := RemoveAt(xs, from);
    var r := InsertAt(rest, to, xs[from]);
    assert RemoveAt(r, to) == rest;
    r
  }

  /** `r` is `xs` with some elements left out and the others in their
      original order. */
  predicate Subsequence<T(==)>(r: seq<T>, xs: seq<T>)
    decreases |xs|
  {
    if |r| == 0 then true
    else if |xs| == 0 then false
    else if r[0] == xs[0] then Subsequence(r[1..], xs[1..])
    else Subsequence(r, xs[1..])
  }

  /** `xs.filter(keep)`. */
  function Filter<T(==)>(xs: seq<T>, keep: T -> bool): (r: seq<T>)
    ensures |r| <= |xs|
    ensures forall i :: 0 <= i < |r| ==> keep(r[i])
    ensures forall i :: 0 <= i < |r| ==> r[i] in xs
    ensures forall i :: 0 <= i < |xs| && keep(xs[i]) ==> xs[i] in r
    ensures (forall i :: 0 <= i < |xs| ==> keep(xs[i])) ==> r == xs
  {
    if |xs| == 0 then []
    else if keep(xs[0]) then [xs[0]] + Filter(xs[1..], keep)
    else Filter(xs[1..], keep)
  }

  /** `filter` keeps the surviving elements in their original order. */
  lemma {:induction false} FilterIsSubsequence<T>(xs: seq<T>, keep: T -> bool)
    ensures Subsequence(Filter(xs, keep), xs)
  {
    if |xs| > 0 {
      var rest := Filter(xs[1..], keep);
      FilterIsSubsequence(xs[1..], keep);
      if keep(xs[0]) {
        assert Filter(xs, keep)[1..] == rest;
      }
    }
  }

  /** `filter` keeps every passing element as often as it occurs, and drops
      every other one. */
  lemma {:induction false} FilterCounts<T>(xs: seq<T>, keep: T -> bool)
    ensures forall i :: 0 <= i < |xs| ==>
      multiset(Filter(xs, keep))[xs[i]] == if keep(xs[i]) then multiset(xs)[xs[i]] else 0
  {
    if |xs| > 0 {
      var rest := Filter(xs[1..], keep);
      FilterCounts(xs[1..], keep);
      assert xs == [xs[0]] + xs[1..];
      forall i | 0 <= i < |xs|
        ensures multiset(Filter(xs, keep))[xs[i]] == if keep(xs[i]) then multiset(xs)[xs[i]] else 0
      {
        var x := xs[i];
        if x !in xs[1..] {
          assert x == xs[0];
          assert multiset(rest)[x] == 0;
        }
      }
    }
  }

  /** `filter` distributes over concatenation: together with its action on a
      single element this pins `Filter` down and says that the kept elements
      stay in their original order. */
  lemma {:induction false} FilterConcat<T>(xs: seq<T>, ys: seq<T>, keep: T -> bool)
    ensures Filter(xs + ys, keep) == Filter(xs, keep) + Filter(ys, keep)
  {
    if |xs| == 0 {
      assert xs + ys == ys;
    } else {
      assert (xs + ys)[1..] == xs[1..] + ys;
      FilterConcat(xs[1..], ys, keep);
    }
  }

  /** `xs.findIndex(p)`, with `None` for JavaScript's `-1`. */
  function FirstIndex<T>(xs: seq<T>, p: T -> bool): (r: Option<nat>)
    ensures r.None? <==> forall i :: 0 <= i < |xs| ==> !p(xs[i])
    ensures r.Some? ==> r.value < |xs| && p(xs[r.value])
    ensures r.Some? ==> forall j :: 0 <= j < r.value ==> !p(xs[j])
  {
    if |xs| == 0 then None
    else if p(xs[0]) then Some(0)
    else match FirstIndex(xs[1..], p)
      case None => None
      case Some(k) => Some(k + 1)
  }

  /** No value occurs twice. */
  predicate Distinct<T(==)>(xs: seq<T>)
  {
    forall i, j :: 0 <= i < j < |xs| ==> xs[i] != xs[j]
  }

  lemma {:induction false} FilterKeepsDistinct<T>(xs: seq<T>, keep: T -> bool)
    ensures Distinct(xs) ==> Distinct(Filter(xs, keep))
  {
    if |xs| > 0 && Distinct(xs) {
      assert Distinct(xs[1..]) by {
        forall i, j | 0 <= i < j < |xs[1..]|
          ensures xs[1..][i] != xs[1..][j]
        {
          assert xs[1..][i] == xs[i + 1] && xs[1..][j] == xs[j + 1];
        }
      }
      FilterKeepsDistinct(xs[1..], keep);
      assert xs[0] !in xs[1..];
    }
  }
}

=== FILE: coordinator.dfy ===
/**
 The coordinator hook (`useAudioPlayer` in `src/hooks/useAudioPlayer.ts`).
 Its two effects are step functions, to be run when their dependencies
 change; its callbacks are step functions over the store and the adapter.
 Each step runs to completion before the next one starts.
 */
module Coordinator {
  import opened Common
  import opened Domain
  import opened Player
  import opened Audio

  /** `lastSongIdRef` and `wasPlayingRef`. */
  datatype Refs = Refs(lastSongId: Option<string>, wasPlaying: bool)

  datatype Hook = Hook(session: Session, refs: Refs)

  datatype Outcome = Outcome(hook: Hook, calls: seq<Call>)

  function InitialRefs(): Refs
  {
    Refs(None, false)
  }

  function WithAdapter(h: Hook, a: Adapter): Hook
  {
    h.(session := h.session.(adapter := a))
  }

  function WithPlayer(h: Hook, p: PlayerState): Hook
  {
    h.(session := h.session.(player := p))
  }

  /** The load effect, run when the current song's id or url changes: no
      song unloads the adapter and forgets the last id; a new song with a url
      is loaded, and played when the load succeeded and the store wants
      playback. The last id is recorded before the load, whatever it
      returns. */
  function LoadEffect(h: Hook, e: Engine): (r: Outcome)
    ensures r.hook.session.player.queue == h.session.player.queue
    ensures r.hook.session.player.currentSong == h.session.player.currentSong
    ensures r.hook.refs.wasPlaying == h.refs.wasPlaying
    ensures h.session.player.currentSong.None? ==>
      r.hook.refs.lastSongId.None? && r.hook.session.adapter.sound.None?
      && r.hook.session.player == h.session.player
    ensures h.session.player.currentSong.Some? ==>
      var song := h.session.player.currentSong.value;
      if Some(song.id) != h.refs.lastSongId && song.url != "" then
        && r.hook.refs.lastSongId == Some(song.id)
        && var ld := LoadSong(h.session.adapter, song.url, song.id, e);
        && r.hook.session.adapter == ld.adapter
        && (PlaySound in r.calls <==> ld.ok && h.session.player.isPlaying && ld.adapter.sound.Some?)
        && (ld.ok ==> r.hook.session.adapter.currentSongId == Some(song.id))
        && (!ld.ok ==> r.hook.session.player == h.session.player)
      else r == Outcome(h, [])
  {
    match h.session.player.currentSong
    case None =>
      var (a, c) := Unload(h.session.adapter);
      Outcome(WithAdapter(h, a).(refs := h.refs.(lastSongId := None)), c)
    case Some(song) =>
      if Some(song.id) != h.refs.lastSongId && song.url != "" then
        var ld := LoadSong(h.session.adapter, song.url, song.id, e);
        var h1 := WithAdapter(h, ld.adapter).(refs := h.refs.(lastSongId := Some(song.id)));
        if ld.ok && h.session.player.isPlaying then
          var st := Play(h1.session, e);
          Outcome(h1.(session := st.session), ld.calls + st.calls)
        else
          Outcome(h1, ld.calls)
      else
        Outcome(h, [])
  }

  /** Makes sure the adapter holds the current song (url given), as the play
      state effect and the toggle callback do. */
  function EnsureLoaded(a: Adapter, song: Song, e: Engine): (r: Loaded)
    ensures a.currentSongId == Some(song.id) ==> r == Loaded(a, true, [])
    ensures a.currentSongId != Some(song.id) ==> r == LoadSong(a, song.url, song.id, e)
  {
    if a.currentSongId != Some(song.id) then LoadSong(a, song.url, song.id, e) else Loaded(a, true, [])
  }

  /** The play state effect, run when `isPlaying` or the current song's id
      changes: nothing without a url; abort if the resync load fails;
      otherwise play on a rising edge of `isPlaying` relative to
      `wasPlayingRef`, pause on a falling edge, and record the flag. */
  function PlayStateEffect(h: Hook, e: Engine): (r: Outcome)
    ensures r.hook.session.player.queue == h.session.player.queue
    ensures r.hook.session.player.currentSong == h.session.player.currentSong
    ensures r.hook.refs.lastSongId == h.refs.lastSongId
    ensures (h.session.player.currentSong.None? || h.session.player.currentSong.value.url == "") ==>
      r == Outcome(h, [])
    ensures h.session.player.currentSong.Some? && h.session.player.currentSong.value.url != "" ==>
      var song := h.session.player.currentSong.value;
      var ld := EnsureLoaded(h.session.adapter, song, e);
      var playing := h.session.player.isPlaying;
      && r.hook.session.adapter == ld.adapter
      && (!ld.ok ==> r.hook.refs == h.refs && r.hook.session.player == h.session.player
                     && PlaySound !in r.calls && PauseSound !in r.calls)
      && (ld.ok ==> r.hook.refs.wasPlaying == playing)
      && (ld.ok && ld.adapter.sound.Some? ==>
            (PlaySound in r.calls <==> playing && !h.refs.wasPlaying)
            && (PauseSound in r.calls <==> !playing && h.refs.wasPlaying))
  {
    match h.session.player.currentSong
    case None => Outcome(h, [])
    case Some(song) =>
      if song.url == "" then Outcome(h, [])
      else
        var ld := EnsureLoaded(h.session.adapter, song, e);
        var h1 := WithAdapter(h, ld.adapter);
        if !ld.ok then Outcome(h1, ld.calls)
        else
          var playing := h.session.player.isPlaying;
          var st := if playing && !h.refs.wasPlaying then Play(h1.session, e)
                    else if !playing && h.refs.wasPlaying then Pause(h1.session, e)
                    else Step(h1.session, []);
          Outcome(Hook(st.session, h.refs.(wasPlaying := playing)), ld.calls + st.calls)
  }

  /** The `togglePlayPause` callback: nothing without a url; load the current
      song first if the adapter holds another one, giving up if that fails;
      then let the adapter toggle. */
  function TogglePlayPause(h: Hook, e: Engine): (r: Outcome)
    ensures r.hook.refs == h.refs
    ensures r.hook.session.player.queue == h.session.player.queue
    ensures r.hook.session.player.currentSong == h.session.player.currentSong
    ensures (h.session.player.currentSong.None? || h.session.player.currentSong.value.url == "") ==>
      r == Outcome(h, [])
    ensures h.session.player.currentSong.Some? && h.session.player.currentSong.value.url != "" ==>
      var ld := EnsureLoaded(h.session.adapter, h.session.player.currentSong.value, e);
      && (!ld.ok ==> r.hook.session.player == h.session.player
                     && PlaySound !in r.calls && PauseSound !in r.calls)
      && (ld.ok ==> r.hook.session == Audio.TogglePlayPause(Session(ld.adapter, h.session.player), e).session)
  {
    match h.session.player.currentSong
    case None => Outcome(h, [])
    case Some(song) =>
      if song.url == "" then Outcome(h, [])
      else
        var ld := EnsureLoaded(h.session.adapter, song, e);
        if !ld.ok then Outcome(WithAdapter(h, ld.adapter), ld.calls)
        else
          var st := Audio.TogglePlayPause(Session(ld.adapter, h.session.player), e);
          Outcome(h.(session := st.session), ld.calls + st.calls)
  }

  /** The `seekTo` callback: the adapter seeks (if it holds a sound), then the
      store takes the new position without waiting for the engine. */
  function SeekTo(h: Hook, p: int): (r: Outcome)
    ensures r.hook.session.player.currentPosition == p
    ensures r.hook.session.player == SetPosition(h.session.player, p)
    ensures r.hook.session.adapter == h.session.adapter && r.hook.refs == h.refs
    ensures r.calls == if h.session.adapter.sound.Some? then [SetSoundPosition(p)] else []
  {
    var st := Audio.SeekTo(h.session, p);
    Outcome(h.(session := st.session.(player := SetPosition(st.session.player, p))), st.calls)
  }

  /** The `skipToNext` callback: the store's reducer, nothing else. */
  function SkipToNext(h: Hook, rnd: real): (r: Outcome)
    requires 0.0 <= rnd < 1.0
    ensures r.hook.session.player == Player.SkipToNext(h.session.player, rnd)
    ensures r.hook.session.adapter == h.session.adapter && r.hook.refs == h.refs && r.calls == []
  {
    Outcome(WithPlayer(h, Player.SkipToNext(h.session.player, rnd)), [])
  }

  /** The `skipToPrevious` callback: past the threshold it seeks to the start
      and keeps the index; otherwise it runs the store's reducer. */
  function SkipToPrevious(h: Hook): (r: Outcome)
    ensures r.hook.refs == h.refs && r.hook.session.adapter == h.session.adapter
    ensures h.session.player.currentPosition > RestartThreshold ==>
      r.hook.session.player.queueIndex == h.session.player.queueIndex
      && r.hook.session.player.currentSong == h.session.player.currentSong
      && r.hook.session.player.currentPosition == 0
      && r.calls == (if h.session.adapter.sound.Some? then [SetSoundPosition(0)] else [])
    ensures h.session.player.currentPosition <= RestartThreshold ==>
      r.hook.session.player == Player.SkipToPrevious(h.session.player) && r.calls == []
  {
    if h.session.player.currentPosition > RestartThreshold then SeekTo(h, 0)
    else Outcome(WithPlayer(h, Player.SkipToPrevious(h.session.player)), [])
  }

  /** The `skipToIndex` callback: the store's reducer, nothing else. */
  function SkipToIndex(h: Hook, index: int): (r: Outcome)
    ensures r.hook.session.player == Player.SkipToIndex(h.session.player, index)
    ensures r.hook.session.adapter == h.session.adapter && r.hook.refs == h.refs && r.calls == []
  {
    Outcome(WithPlayer(h, Player.SkipToIndex(h.session.player, index)), [])
  }
}

=== FILE: coordinator_lemmas.dfy ===
/**
 Properties that span the adapter, the store and the hook: the end-of-song
 scenarios, what a failed load leaves behind, the two effects run in their
 declaration order when the current song changes, and the adapter's
 consistency across all steps.
 */
module CoordinatorLemmas {
  import opened Common
  import opened Domain
  import opened Player
  import opened Audio
  import opened Coordinator

  /** Three songs, repeat off, the first one current: each "just finished"
      report moves one song on, and the report for the last one stops
      playback and leaves the queue and index alone. */
  lemma SongEndScenario(ss: Session, a: Song, b: Song, c: Song, rnd: real, e: Engine)
    requires 0.0 <= rnd < 1.0
    requires ss.player == PlayerState(Some(a), true, 0, 0, [a, b, c], 0, false, Off)
    ensures var fin := LoadedStatus(None, None, true, false);
      var s1 := OnPlaybackStatusUpdate(ss, fin, rnd, e).session;
      var s2 := OnPlaybackStatusUpdate(s1, fin, rnd, e).session;
      var s3 := OnPlaybackStatusUpdate(s2, fin, rnd, e).session;
      && s1.player.currentSong == Some(b)
      && s2.player.currentSong == Some(c)
      && s3.player.queueIndex == 2 && s3.player.queue == [a, b, c] && !s3.player.isPlaying
  {
  }

  /** Repeat-one keeps the song and index, rewinds the engine and plays
      again; a looping sound never reaches `handleSongEnd`. */
  lemma RepeatOneScenario(ss: Session, rnd: real, e: Engine)
    requires 0.0 <= rnd < 1.0
    requires ss.player.repeat == One && ss.adapter.sound.Some?
    ensures var r := OnPlaybackStatusUpdate(ss, LoadedStatus(None, None, true, false), rnd, e);
      r.session.player.queueIndex == ss.player.queueIndex
      && r.session.player.currentSong == ss.player.currentSong
      && r.calls == [SetSoundPosition(0), PlaySound]
    ensures OnPlaybackStatusUpdate(ss, LoadedStatus(None, None, true, true), rnd, e) == Step(ss, [])
  {
  }

  /** With shuffle on, the end of the last song still stops playback unless
      the queue repeats: the end-of-song decision looks at the position, not
      at shuffle. */
  lemma ShuffleStopsAtLastIndex(ss: Session, rnd: real, e: Engine)
    requires 0.0 <= rnd < 1.0
    requires ss.player.shuffle && ss.player.repeat == Off
    requires |ss.player.queue| > 0 && ss.player.queueIndex == |ss.player.queue| - 1
    ensures var p := HandleSongEnd(ss, rnd, e).session.player;
      !p.isPlaying && p.queueIndex == ss.player.queueIndex
  {
  }

  /** A failed load of a new song leaves the store untouched: the song stays
      current, nothing plays, and the adapter holds no sound. */
  lemma FailedLoadLeavesStore(h: Hook, e: Engine)
    requires !e.createOk && Consistent(h.session.adapter)
    requires h.session.player.currentSong.Some?
    requires h.session.player.currentSong.value.url != ""
    requires Some(h.session.player.currentSong.value.id) != h.refs.lastSongId
    requires h.session.adapter.currentSongId != Some(h.session.player.currentSong.value.id)
    ensures var r := LoadEffect(h, e);
      r.hook.session.player == h.session.player
      && r.hook.session.adapter.sound.None?
      && PlaySound !in r.calls
      && r.hook.refs.lastSongId == Some(h.session.player.currentSong.value.id)
  {
  }

  /** Once the load effect has loaded a song (or retried it), the play state
      effect that follows it for the same change does not load again. */
  lemma SongChangeLoadsOnce(h: Hook, e: Engine)
    requires h.session.player.currentSong.Some?
    requires h.session.player.currentSong.value.url != ""
    requires Some(h.session.player.currentSong.value.id) != h.refs.lastSongId
    requires LoadSong(h.session.adapter, h.session.player.currentSong.value.url,
                      h.session.player.currentSong.value.id, e).ok
    ensures var h1 := LoadEffect(h, e).hook;
      !Creates(PlayStateEffect(h1, e).calls) && UnloadSound !in PlayStateEffect(h1, e).calls
  {
    var song := h.session.player.currentSong.value;
    var h1 := LoadEffect(h, e).hook;
    assert h1.session.adapter.currentSongId == Some(song.id);
    assert h1.session.player.currentSong == Some(song);
    var r := PlayStateEffect(h1, e);
    var ld := EnsureLoaded(h1.session.adapter, song, e);
    assert ld.calls == [];
    assert forall i :: 0 <= i < |r.calls| ==> r.calls[i] == PlaySound || r.calls[i] == PauseSound;
  }

  /** Every step of the hook keeps the adapter consistent: a sound is held
      exactly when a song id is recorded. */
  lemma StepsKeepAdapterConsistent(h: Hook, e: Engine, rnd: real, p: int, i: int)
    requires 0.0 <= rnd < 1.0
    requires Consistent(h.session.adapter)
    ensures Consistent(LoadEffect(h, e).hook.session.adapter)
    ensures Consistent(PlayStateEffect(h, e).hook.session.adapter)
    ensures Consistent(Coordinator.TogglePlayPause(h, e).hook.session.adapter)
    ensures Consistent(Coordinator.SeekTo(h, p).hook.session.adapter)
    ensures Consistent(Coordinator.SkipToNext(h, rnd).hook.session.adapter)
    ensures Consistent(Coordinator.SkipToPrevious(h).hook.session.adapter)
    ensures Consistent(Coordinator.SkipToIndex(h, i).hook.session.adapter)
  {
  }
}

=== FILE: domain.dfy ===
/**
 The domain records shared by the stores (`src/types/index.ts`).
 Optional string fields that the code only tests for truthiness are plain
 strings, with "" standing for both "absent" and "empty".
 */
module Domain {
  import opened Common

  datatype Song = Song(
    id: string,
    title: string,
    artist: string,
    album: string,
    albumId: string,
    artistId: string,
    duration: int,            // seconds
    artwork: string,
    url: string,              // "" when there is no stream url
    isFavorite: Option<bool>)

  datatype Artist = Artist(
    id: string,
    name: string,
    image: string,
    albumCount: int,
    songCount: int,
    totalDuration: int)

  /** The `year` field of the source's Album is not part of this model. */
  datatype Album = Album(
    id: string,
    title: string,
    artist: string,
    artistId: string,
    artwork: string,
    songCount: int)

  datatype Playlist = Playlist(
    id: string,
    name: string,
    description: Option<string>,
    artwork: Option<string>,
    songs: seq<Song>,
    createdAt: string,        // ISO timestamps, supplied by the caller
    updatedAt: string)

  /** Some song in `songs` carries the id `id`. */
  predicate HasId(songs: seq<Song>, id: string)
  {
    exists i :: 0 <= i < |songs| && songs[i].id == id
  }

  /** No two songs in `songs` share an id. */
  predicate UniqueIds(songs: seq<Song>)
  {
    forall i, j :: 0 <= i < j < |songs| ==> songs[i].id != songs[j].id
  }
}

=== FILE: favorites.dfy ===
/**
 The favorites store (`favoritesSlice` in `src/store/useFavoritesStore.ts`):
 a list of songs, newest first, meant to hold each id at most once.
 */
module Favorites {
  import opened Common
  import opened Domain

  /** The stored copy of a favorite song. */
  function Favorite(song: Song): (r: Song)
    ensures r.id == song.id && r.isFavorite == Some(true)
  {
    song.(isFavorite := Some(true))
  }

  function FindId(songs: seq<Song>, id: string): (r: Option<nat>)
    ensures r.None? <==> !HasId(songs, id)
    ensures r.Some? ==> r.value < |songs| && songs[r.value].id == id
    ensures r.Some? ==> forall j :: 0 <= j < r.value ==> songs[j].id != id
  {
    FirstIndex(songs, (s: Song) => s.id == id)
  }

  /** `addToFavorites(song)`: prepends a favorite copy unless the id is
      already there. */
  function AddToFavorites(songs: seq<Song>, song: Song): (r: seq<Song>)
    ensures HasId(songs, song.id) ==> r == songs
    ensures !HasId(songs, song.id) ==> |r| == |songs| + 1 && r[0] == Favorite(song) && r[1..] == songs
    ensures HasId(r, song.id)
    ensures UniqueIds(songs) ==> UniqueIds(r)
  {
    if FindId(songs, song.id).Some? then songs else [Favorite(song)] + songs
  }

  /** `removeFromFavorites(id)`: drops every entry with the id. */
  function RemoveFromFavorites(songs: seq<Song>, id: string): (r: seq<Song>)
    ensures !HasId(r, id)
    ensures forall i :: 0 <= i < |songs| && songs[i].id != id ==> songs[i] in r
    ensures forall i :: 0 <= i < |r| ==> r[i] in songs
    ensures !HasId(songs, id) ==> r == songs
    ensures Subsequence(r, songs)
    ensures forall i :: 0 <= i < |songs| && songs[i].id != id ==>
      multiset(r)[songs[i]] == multiset(songs)[songs[i]]
  {
    var keep := (s: Song) => s.id != id;
    FilterIsSubsequence(songs, keep);
    FilterCounts(songs, keep);
    Filter(songs, keep)
  }

  /** `toggleFavorite(song)`: removes the first entry with the id if there is
      one, and otherwise prepends a favorite copy. */
  function ToggleFavorite(songs: seq<Song>, song: Song): (r: seq<Song>)
    ensures !HasId(songs, song.id) ==> r == [Favorite(song)] + songs
    ensures forall i ::
      (0 <= i < |songs| && songs[i].id == song.id
       && (forall j :: 0 <= j < i ==> songs[j].id != song.id))
      ==> r == songs[..i] + songs[i + 1..]
    ensures UniqueIds(songs) ==> UniqueIds(r)
    ensures UniqueIds(songs) ==> (HasId(r, song.id) <==> !HasId(songs, song.id))
  {
    match FindId(songs, song.id)
    case None =>
      var r := [Favorite(song)] + songs;
      assert r[0].id == song.id;
      r
    case Some(i) =>
      var r := RemoveAt(songs, i);
      assert r == songs[..i] + songs[i + 1..];
      r
  }

  /** Toggling a song that is not a favorite twice restores the list. */
  lemma ToggleTwiceRestores(songs: seq<Song>, song: Song)
    requires !HasId(songs, song.id)
    ensures ToggleFavorite(ToggleFavorite(songs, song), song) == songs
  {
    var t := ToggleFavorite(songs, song);
    assert t[0].id == song.id;
    assert FindId(t, song.id) == Some(0);
    assert t[1..] == songs;
  }

  /** `clearFavorites()`. */
  function ClearFavorites(songs: seq<Song>): (r: seq<Song>)
    ensures |r| == 0 && forall id :: !HasId(r, id)
  {
    []
  }
}

=== FILE: mappers.dfy ===
/**
 The mappers from catalog records to domain records (`src/utils/mappers.ts`).
 Record fields the mappers read through `?.` or `|| default` are optional
 here; fields they never read are left out of the records.
 */
module Mappers {
  import opened Common
  import opened Strings
  import opened Domain
  import opened Api

  datatype ApiAlbumRef = ApiAlbumRef(id: string, name: string)

  datatype ApiSong = ApiSong(
    id: string,
    name: string,
    album: Option<ApiAlbumRef>,
    duration: Option<int>,
    primaryArtists: string,
    primaryArtistsId: Option<string>,
    image: Option<seq<QualityLink>>,
    downloadUrl: Option<seq<QualityLink>>)

  datatype ApiArtist = ApiArtist(id: string, name: string, image: Option<seq<QualityLink>>)

  datatype ApiAlbum = ApiAlbum(
    id: string,
    name: string,
    primaryArtists: string,
    primaryArtistsId: Option<string>,
    songCount: Option<int>,
    image: Option<seq<QualityLink>>)

  /** `ids?.split(',')[0]?.trim() || ''`: the first comma-separated id,
      trimmed. */
  function FirstArtistId(ids: Option<string>): (r: string)
    ensures ids.None? ==> r == ""
    ensures ids.Some? ==> r == Trim(FirstSegment(ids.value, ','))
    ensures |r| > 0 ==> !IsSpace(r[0]) && !IsSpace(r[|r| - 1])
  {
    match ids
    case None => ""
    case Some(s) => Trim(FirstSegment(s, ','))
  }

  /** The artist id holds no comma and only characters of the input, and a
      single clean id passes through unchanged. */
  lemma FirstArtistIdShape(ids: Option<string>)
    ensures ',' !in FirstArtistId(ids)
    ensures ids.Some? ==> forall i :: 0 <= i < |FirstArtistId(ids)| ==> FirstArtistId(ids)[i] in ids.value
    ensures ids.Some? && ',' !in ids.value && Trim(ids.value) == ids.value ==> FirstArtistId(ids) == ids.value
  {
    if ids.Some? {
      var s := ids.value;
      var seg := FirstSegment(s, ',');
      var r := Trim(seg);
      TrimDrawsFromInput(seg);
      assert forall i :: 0 <= i < |seg| ==> seg[i] == s[i];
      assert ',' !in s ==> seg == s;
    }
  }

  /** Of a comma-separated list of ids, the first is taken and trimmed,
      whatever follows the first comma. */
  lemma FirstArtistIdTakesFirst(a: string, b: string)
    requires ',' !in a
    ensures FirstArtistId(Some(a + "," + b)) == Trim(a)
  {
    var s := a + "," + b;
    assert s[|a|] == ',';
    assert forall i :: 0 <= i < |a| ==> s[i] == a[i];
    assert FirstSegment(s, ',') == a;
  }

  /** A list that starts with a clean id (no comma, no white space at its
      ends) yields that id. */
  lemma FirstArtistIdOfCleanList(a: string, b: string)
    requires ',' !in a && |a| > 0 && !IsSpace(a[0]) && !IsSpace(a[|a| - 1])
    ensures FirstArtistId(Some(a + "," + b)) == a
  {
    FirstArtistIdTakesFirst(a, b);
    TrimIsSlice(a, 0, |a|);
  }

  function MapApiSongToSong(a: ApiSong): (r: Song)
    ensures r.id == a.id && r.title == a.name && r.artist == a.primaryArtists
    ensures r.artistId == FirstArtistId(a.primaryArtistsId)
    ensures a.album.None? ==> r.album == "" && r.albumId == ""
    ensures a.album.Some? ==> r.album == a.album.value.name && r.albumId == a.album.value.id
    ensures a.duration.None? ==> r.duration == 0
    ensures a.duration.Some? ==> r.duration == a.duration.value
    ensures r.artwork == GetBestImage(a.image.GetOr([]))
    ensures r.url == GetBestDownloadUrl(a.downloadUrl.GetOr([]))
    ensures a.downloadUrl.None? ==> r.url == ""
    ensures r.isFavorite.None?
  {
    Song(
      a.id,
      a.name,
      a.primaryArtists,
      a.album.GetOr(ApiAlbumRef("", "")).name,
      a.album.GetOr(ApiAlbumRef("", "")).id,
      FirstArtistId(a.primaryArtistsId),
      a.duration.GetOr(0),
      GetBestImage(a.image.GetOr([])),
      GetBestDownloadUrl(a.downloadUrl.GetOr([])),
      None)
  }

  function MapApiArtistToArtist(a: ApiArtist): (r: Artist)
    ensures r.id == a.id && r.name == a.name
    ensures r.image == GetBestImage(a.image.GetOr([]))
    ensures r.albumCount == 0 && r.songCount == 0 && r.totalDuration == 0
  {
    Artist(a.id, a.name, GetBestImage(a.image.GetOr([])), 0, 0, 0)
  }

  function MapApiAlbumToAlbum(a: ApiAlbum): (r: Album)
    ensures r.id == a.id && r.title == a.name && r.artist == a.primaryArtists
    ensures r.artistId == FirstArtistId(a.primaryArtistsId)
    ensures r.artwork == GetBestImage(a.image.GetOr([]))
    ensures a.songCount.None? ==> r.songCount == 0
    ensures a.songCount.Some? ==> r.songCount == a.songCount.value
  {
    Album(a.id, a.name, a.primaryArtists, FirstArtistId(a.primaryArtistsId),
          GetBestImage(a.image.GetOr([])), a.songCount.GetOr(0))
  }

  function MapApiSongsToSongs(xs: seq<ApiSong>): (r: seq<Song>)
    ensures |r| == |xs|
    ensures forall i :: 0 <= i < |xs| ==> r[i] == MapApiSongToSong(xs[i])
  {
    if |xs| == 0 then [] else [MapApiSongToSong(xs[0])] + MapApiSongsToSongs(xs[1..])
  }

  function MapApiArtistsToArtists(xs: seq<ApiArtist>): (r: seq<Artist>)
    ensures |r| == |xs|
    ensures forall i :: 0 <= i < |xs| ==> r[i] == MapApiArtistToArtist(xs[i])
  {
    if |xs| == 0 then [] else [MapApiArtistToArtist(xs[0])] + MapApiArtistsToArtists(xs[1..])
  }

  function MapApiAlbumsToAlbums(xs: seq<ApiAlbum>): (r: seq<Album>)
    ensures |r| == |xs|
    ensures forall i :: 0 <= i < |xs| ==> r[i] == MapApiAlbumToAlbum(xs[i])
  {
    if |xs| == 0 then [] else [MapApiAlbumToAlbum(xs[0])] + MapApiAlbumsToAlbums(xs[1..])
  }
}

=== FILE: player.dfy ===
/**
 The playback queue reducer (`playerSlice` in `src/store/usePlayerStore.ts`):
 a pure state machine over the queue, the index of the current song, the
 current song itself, the transport flag, the position and the shuffle and
 repeat modes. `Math.random()` is the parameter `rnd`.
 */
module Player {
  import opened Common
  import opened Domain

  datatype Repeat = Off | One | All

  datatype PlayerState = PlayerState(
    currentSong: Option<Song>,
    isPlaying: bool,
    currentPosition: int,     // milliseconds
    duration: int,            // milliseconds
    queue: seq<Song>,
    queueIndex: int,
    shuffle: bool,
    repeat: Repeat)

  /** Below this position (in milliseconds) "previous" moves to the previous
      song; above it, it restarts the current one. */
  const RestartThreshold := 3000

  /** The invariant the queue is meant to keep: an empty queue has index 0 and
      no current song, and otherwise the index is in range and the current
      song is the one it points at. */
  predicate Synced(s: PlayerState)
  {
    if |s.queue| == 0 then s.queueIndex == 0 && s.currentSong.None?
    else 0 <= s.queueIndex < |s.queue| && s.currentSong == Some(s.queue[s.queueIndex])
  }

  /** Everything but the queue, the index and the current song. */
  predicate SameSettings(s: PlayerState, r: PlayerState)
  {
    r.isPlaying == s.isPlaying && r.shuffle == s.shuffle && r.repeat == s.repeat
    && r.duration == s.duration
  }

  function Initial(): (s: PlayerState)
    ensures Synced(s) && |s.queue| == 0 && !s.isPlaying
  {
    PlayerState(None, false, 0, 0, [], 0, false, Off)
  }

  /** `queue[i]` in JavaScript: `undefined` outside the array. */
  function SongAt(q: seq<Song>, i: int): (r: Option<Song>)
    ensures r.Some? <==> 0 <= i < |q|
    ensures r.Some? ==> r.value == q[i]
  {
    if 0 <= i < |q| then Some(q[i]) else None
  }

  // ---- plain setters ----

  function SetCurrentSong(s: PlayerState, song: Song): (r: PlayerState)
    ensures r.currentSong == Some(song)
    ensures r == s.(currentSong := r.currentSong)
    ensures Synced(s) && |s.queue| > 0 ==> (Synced(r) <==> song == s.queue[s.queueIndex])
  {
    s.(currentSong := Some(song))
  }

  function SetIsPlaying(s: PlayerState, b: bool): (r: PlayerState)
    ensures r.isPlaying == b
    ensures r == s.(isPlaying := r.isPlaying)
    ensures Synced(r) <==> Synced(s)
  {
    s.(isPlaying := b)
  }

  /** The store's own `togglePlayPause`, which only flips the flag. */
  function TogglePlaying(s: PlayerState): (r: PlayerState)
    ensures r.isPlaying != s.isPlaying
    ensures r == s.(isPlaying := r.isPlaying)
    ensures Synced(r) <==> Synced(s)
  {
    s.(isPlaying := !s.isPlaying)
  }

  function SetPosition(s: PlayerState, p: int): (r: PlayerState)
    ensures r.currentPosition == p
    ensures r == s.(currentPosition := r.currentPosition)
    ensures Synced(r) <==> Synced(s)
  {
    s.(currentPosition := p)
  }

  function SetDuration(s: PlayerState, d: int): (r: PlayerState)
    ensures r.duration == d
    ensures r == s.(duration := r.duration)
    ensures Synced(r) <==> Synced(s)
  {
    s.(duration := d)
  }

  // ---- queue operations ----

  /** `setQueue({songs, startIndex})`; the default start index 0 is passed
      explicitly. The index is taken as given, not clamped. */
  function SetQueue(s: PlayerState, songs: seq<Song>, startIndex: int): (r: PlayerState)
    ensures r.queue == songs && r.queueIndex == startIndex
    ensures 0 <= startIndex < |songs| ==> r.currentSong == Some(songs[startIndex])
    ensures !(0 <= startIndex < |songs|) ==> r.currentSong.None?
    ensures Synced(r) <==> (0 <= startIndex < |songs| || (|songs| == 0 && startIndex == 0))
    ensures SameSettings(s, r) && r.currentPosition == s.currentPosition
  {
    s.(queue := songs, queueIndex := startIndex, currentSong := SongAt(songs, startIndex))
  }

  /** `addToQueue(song)`: appends, touching nothing else. */
  function AddToQueue(s: PlayerState, song: Song): (r: PlayerState)
    ensures |r.queue| == |s.queue| + 1 && r.queue[..|s.queue|] == s.queue
    ensures r.queue[|s.queue|] == song
    ensures r.queueIndex == s.queueIndex && r.currentSong == s.currentSong
    ensures SameSettings(s, r) && r.currentPosition == s.currentPosition
    ensures Synced(s) && |s.queue| > 0 ==> Synced(r)
  {
    s.(queue := s.queue + [song])
  }

  /** `playNext(song)`: `queue.splice(queueIndex + 1, 0, song)`. */
  function PlayNext(s: PlayerState, song: Song): (r: PlayerState)
    ensures |r.queue| == |s.queue| + 1
    ensures r.queueIndex == s.queueIndex && r.currentSong == s.currentSong
    ensures SameSettings(s, r) && r.currentPosition == s.currentPosition
    ensures multiset(r.queue) == multiset(s.queue) + multiset{song}
    ensures 0 <= s.queueIndex < |s.queue| ==>
      && r.queue[s.queueIndex + 1] == song
      && (forall k :: 0 <= k <= s.queueIndex ==> r.queue[k] == s.queue[k])
      && (forall k :: s.queueIndex + 1 < k < |r.queue| ==> r.queue[k] == s.queue[k - 1])
    ensures Synced(s) && |s.queue| > 0 ==> Synced(r)
  {
    var at := SpliceStart(s.queueIndex + 1, |s.queue|);
    var q := InsertAt(s.queue, at, song);
    assert 0 <= s.queueIndex < |s.queue| ==> at == s.queueIndex + 1;
    s.(queue := q)
  }

  /** `removeFromQueue(index)`: drops the element at `index` (nothing when
      `index` is outside the queue), then moves the index down when the
      removed element came before it, and clamps it when the current last
      song was removed. */
  function RemoveFromQueue(s: PlayerState, index: int): (r: PlayerState)
    ensures 0 <= index < |s.queue| ==> r.queue == s.queue[..index] + s.queue[index + 1..]
    ensures !(0 <= index < |s.queue|) ==> r.queue == s.queue
    ensures SameSettings(s, r) && r.currentPosition == s.currentPosition
    ensures Synced(s) && 0 <= index < |s.queue| ==> Synced(r)
    // an earlier song went: the same song stays current, one place lower
    ensures Synced(s) && 0 <= index < s.queueIndex ==>
      r.queueIndex == s.queueIndex - 1 && r.currentSong == s.currentSong
    // a later song went: nothing moves
    ensures Synced(s) && s.queueIndex < index < |s.queue| ==>
      r.queueIndex == s.queueIndex && r.currentSong == s.currentSong
    // the current song went and was not last: its successor takes its place
    ensures Synced(s) && index == s.queueIndex < |s.queue| - 1 ==>
      r.queueIndex == s.queueIndex && r.currentSong == Some(s.queue[index + 1])
    // the current last song went: the new last song, or nothing when empty
    ensures Synced(s) && |s.queue| > 0 && index == s.queueIndex == |s.queue| - 1 ==>
      (if index == 0 then r.queueIndex == 0 && r.currentSong.None?
       else r.queueIndex == index - 1 && r.currentSong == Some(s.queue[index - 1]))
    ensures Synced(s) && index >= |s.queue| ==> r == s
    // an index below 0 removes nothing, yet still moves the index down
    ensures index < 0 && index < s.queueIndex ==> r.queueIndex == s.queueIndex - 1
  {
    var q := if 0 <= index < |s.queue| then RemoveAt(s.queue, index) else s.queue;
    var i1 := if index < s.queueIndex then s.queueIndex - 1 else s.queueIndex;
    var i2 := if index == i1 && index >= |q| then (if |q| - 1 > 0 then |q| - 1 else 0) else i1;
    s.(queue := q, queueIndex := i2, currentSong := SongAt(q, i2))
  }

  /** `clearQueue()`. */
  function ClearQueue(s: PlayerState): (r: PlayerState)
    ensures |r.queue| == 0 && r.queueIndex == 0 && r.currentSong.None?
    ensures Synced(r)
    ensures SameSettings(s, r) && r.currentPosition == s.currentPosition
  {
    s.(queue := [], queueIndex := 0, currentSong := None)
  }

  /** A fraction of a positive quantity stays below it. */
  lemma FractionBelow(a: real, m: real)
    requires 0.0 <= a < 1.0 && m > 0.0
    ensures 0.0 <= a * m < m
  {
    calc {
      m - a * m;
    ==
      (1.0 - a) * m;
    >
      0.0;
    }
  }

  /** `Math.floor(rnd * n)` for `rnd` drawn from `[0, 1)`. */
  function RandomIndex(rnd: real, n: nat): (k: int)
    requires 0.0 <= rnd < 1.0 && n > 0
    ensures 0 <= k < n
  {
    var x := rnd * n as real;
    FractionBelow(rnd, n as real);
    assert 0.0 <= x < n as real;
    x.Floor
  }

  /** Makes position `k` current and rewinds. */
  function JumpTo(s: PlayerState, k: int): (r: PlayerState)
    ensures r.queue == s.queue && r.queueIndex == k && r.currentPosition == 0
    ensures SameSettings(s, r)
    ensures 0 <= k < |s.queue| ==> Synced(r)
  {
    s.(queueIndex := k, currentSong := SongAt(s.queue, k), currentPosition := 0)
  }

  /** `skipToNext()`: a random index under shuffle, else the next index
      while the index is below the last position (a negative one included),
      else the first index under repeat-all, else nothing. */
  function SkipToNext(s: PlayerState, rnd: real): (r: PlayerState)
    requires 0.0 <= rnd < 1.0
    ensures r.queue == s.queue && SameSettings(s, r)
    ensures |s.queue| == 0 ==> r == s
    ensures |s.queue| > 0 && s.shuffle ==>
      0 <= r.queueIndex < |s.queue| && r.currentPosition == 0 && Synced(r)
    ensures !s.shuffle && |s.queue| > 0 && s.queueIndex < |s.queue| - 1 ==>
      r.queueIndex == s.queueIndex + 1 && r.currentPosition == 0
      && r.currentSong == SongAt(s.queue, s.queueIndex + 1)
    ensures !s.shuffle && |s.queue| > 0 && s.queueIndex >= |s.queue| - 1 ==>
      if s.repeat == All then r.queueIndex == 0 && r.currentPosition == 0
        && r.currentSong == Some(s.queue[0])
      else r == s
    ensures Synced(s) ==> Synced(r)
  {
    if |s.queue| == 0 then s
    else if s.shuffle then JumpTo(s, RandomIndex(rnd, |s.queue|))
    else if s.queueIndex < |s.queue| - 1 then JumpTo(s, s.queueIndex + 1)
    else if s.repeat == All then JumpTo(s, 0)
    else s
  }

  /** Under shuffle every index of the queue, the current one included, is a
      possible outcome of `skipToNext`. */
  lemma ShuffleReachesEveryIndex(s: PlayerState, k: int)
    requires s.shuffle && 0 <= k < |s.queue|
    ensures exists rnd: real :: 0.0 <= rnd < 1.0 && SkipToNext(s, rnd).queueIndex == k
  {
    var n := |s.queue| as real;
    var rnd := k as real / n;
    assert rnd * n == k as real;
    assert rnd < 1.0 by {
      assert (1.0 - rnd) * n == n - k as real > 0.0;
    }
    assert SkipToNext(s, rnd).queueIndex == k;
  }

  /** `skipToPrevious()`: past the threshold only the position rewinds;
      otherwise the index steps back, wrapping from the first song to the
      last. */
  function SkipToPrevious(s: PlayerState): (r: PlayerState)
    ensures r.queue == s.queue && SameSettings(s, r)
    ensures |s.queue| == 0 ==> r == s
    ensures |s.queue| > 0 && s.currentPosition > RestartThreshold ==>
      r == s.(currentPosition := 0)
    ensures |s.queue| > 0 && s.currentPosition <= RestartThreshold ==>
      r.currentPosition == 0
      && r.queueIndex == (if s.queueIndex > 0 then s.queueIndex - 1 else |s.queue| - 1)
      && r.currentSong == SongAt(s.queue, r.queueIndex)
    ensures Synced(s) ==> Synced(r)
  {
    if |s.queue| == 0 then s
    else if s.currentPosition > RestartThreshold then s.(currentPosition := 0)
    else JumpTo(s, if s.queueIndex > 0 then s.queueIndex - 1 else |s.queue| - 1)
  }

  /** `skipToIndex(index)`: a jump to a valid index; anything else is ignored. */
  function SkipToIndex(s: PlayerState, index: int): (r: PlayerState)
    ensures 0 <= index < |s.queue| ==>
      r.queueIndex == index && r.currentSong == Some(s.queue[index])
      && r.currentPosition == 0 && r.queue == s.queue && SameSettings(s, r)
    ensures !(0 <= index < |s.queue|) ==> r == s
    ensures Synced(s) ==> Synced(r)
  {
    if 0 <= index < |s.queue| then JumpTo(s, index) else s
  }

  function ToggleShuffle(s: PlayerState): (r: PlayerState)
    ensures r.shuffle != s.shuffle
    ensures r == s.(shuffle := r.shuffle)
  {
    s.(shuffle := !s.shuffle)
  }

  /** `modes[(modes.indexOf(repeat) + 1) % 3]` over `['off', 'one', 'all']`. */
  function NextRepeat(m: Repeat): (r: Repeat)
    ensures r != m
  {
    match m
    case Off => One
    case One => All
    case All => Off
  }

  function ToggleRepeat(s: PlayerState): (r: PlayerState)
    ensures r.repeat == NextRepeat(s.repeat)
    ensures r == s.(repeat := r.repeat)
  {
    s.(repeat := NextRepeat(s.repeat))
  }

  /** `reorderQueue({fromIndex, toIndex})`. Both splices clamp their start:
      the song at `MoveFrom(from, |queue|)` is taken out and put back at
      `MoveTo(to, |queue|)`. The index rule, though, compares the raw
      arguments, so the index follows the moved song only when both
      arguments are positions of the queue. */
  function ReorderQueue(s: PlayerState, from: int, to: int): (r: PlayerState)
    requires 0 < |s.queue| && from < |s.queue|
    ensures |r.queue| == |s.queue| && multiset(r.queue) == multiset(s.queue)
    ensures r.queue[MoveTo(to, |s.queue|)] == s.queue[MoveFrom(from, |s.queue|)]
    ensures RemoveAt(r.queue, MoveTo(to, |s.queue|)) == RemoveAt(s.queue, MoveFrom(from, |s.queue|))
    ensures s.queueIndex == from ==> r.queueIndex == to
    ensures 0 <= from && 0 <= to < |s.queue| && 0 <= s.queueIndex < |s.queue| ==>
      0 <= r.queueIndex < |r.queue| && r.queue[r.queueIndex] == s.queue[s.queueIndex]
    ensures r.currentSong == s.currentSong && SameSettings(s, r)
    ensures r.currentPosition == s.currentPosition
    ensures Synced(s) && 0 <= from && 0 <= to < |s.queue| ==> Synced(r)
  {
    var f := MoveFrom(from, |s.queue|);
    var t := MoveTo(to, |s.queue|);
    MoveTracksIndex(s.queue, f, t, s.queueIndex);
    s.(queue := Move(s.queue, f, t), queueIndex := ReorderedIndex(s.queueIndex, from, to))
  }

  /** Where `reorderQueue` puts the index `i` after moving `from` to `to`. */
  function ReorderedIndex(i: int, from: int, to: int): int
  {
    if i == from then to
    else if from < i && to >= i then i - 1
    else if from > i && to <= i then i + 1
    else i
  }

  /** The index rule of `reorderQueue` follows the element it pointed at. */
  lemma MoveTracksIndex<T>(xs: seq<T>, from: nat, to: nat, i: int)
    requires from < |xs| && to < |xs|
    ensures var j := ReorderedIndex(i, from, to);
      0 <= i < |xs| ==> 0 <= j < |xs| && Move(xs, from, to)[j] == xs[i]
  {
    var j := ReorderedIndex(i, from, to);
    if 0 <= i < |xs| && i != from {
      var rest := RemoveAt(xs, from);
      // the position of xs[i] once xs[from] is gone
      var k := if i < from then i else i - 1;
      assert rest[k] == xs[i];
      assert InsertAt(rest, to, xs[from])[j] == rest[k];
    }
  }
}

=== FILE: player_fixes.dfy ===
/**
 Inputs on which `playerSlice` leaves its queue invariant, each shown on the
 reducer as written, next to a corrected variant that keeps the invariant
 for every input.
 */
module PlayerFixes {
  import opened Common
  import opened Domain
  import opened Player

  /** `removeFromQueue(-1)` removes nothing (the filter matches no position)
      but still lowers the index, here to -1, so a one-song queue ends up with
      no current song. */
  lemma NegativeRemoveDesyncs(a: Song)
    ensures var s := SetQueue(Initial(), [a], 0);
      && Synced(s)
      && RemoveFromQueue(s, -1).queue == [a]
      && RemoveFromQueue(s, -1).queueIndex == -1
      && RemoveFromQueue(s, -1).currentSong.None?
      && !Synced(RemoveFromQueue(s, -1))
  {
  }

  /** `removeFromQueue` that ignores an index outside the queue, as the filter
      already does for the queue itself. */
  function RemoveFromQueueChecked(s: PlayerState, index: int): (r: PlayerState)
    ensures Synced(s) ==> Synced(r)
    ensures 0 <= index < |s.queue| ==> r == RemoveFromQueue(s, index)
    ensures !(0 <= index < |s.queue|) ==> r == s
  {
    if 0 <= index < |s.queue| then RemoveFromQueue(s, index) else s
  }

  /** `setQueue(songs, startIndex)` stores an out-of-range start index as
      given: with one song and start 1 the queue is non-empty and nothing is
      current. */
  lemma UnclampedStartDesyncs(s: PlayerState, a: Song)
    ensures SetQueue(s, [a], 1).queueIndex == 1
    ensures SetQueue(s, [a], 1).currentSong.None?
    ensures !Synced(SetQueue(s, [a], 1))
  {
  }

  /** `addToQueue` that also makes the song current when the queue was
      empty, so that the queue never holds songs with nothing current. */
  function AddToQueueChecked(s: PlayerState, song: Song): (r: PlayerState)
    ensures Synced(s) ==> Synced(r)
    ensures r.queue == AddToQueue(s, song).queue && SameSettings(s, r)
    ensures |s.queue| > 0 ==> r == AddToQueue(s, song)
    ensures |s.queue| == 0 ==> r.queueIndex == 0 && r.currentSong == Some(song)
  {
    var r := AddToQueue(s, song);
    if |s.queue| == 0 then r.(queueIndex := 0, currentSong := Some(song)) else r
  }

  /** `playNext` with the same correction for an empty queue. */
  function PlayNextChecked(s: PlayerState, song: Song): (r: PlayerState)
    ensures Synced(s) ==> Synced(r)
    ensures r.queue == PlayNext(s, song).queue && SameSettings(s, r)
    ensures |s.queue| > 0 ==> r == PlayNext(s, song)
    ensures |s.queue| == 0 ==> r.queueIndex == 0 && r.currentSong == Some(song)
  {
    var r := PlayNext(s, song);
    if |s.queue| == 0 then r.(queueIndex := 0, currentSong := Some(song)) else r
  }

  /** `setQueue` with the start index clamped into the new queue. */
  function SetQueueClamped(s: PlayerState, songs: seq<Song>, startIndex: int): (r: PlayerState)
    ensures Synced(r)
    ensures r.queue == songs && SameSettings(s, r)
    ensures 0 <= startIndex < |songs| ==> r == SetQueue(s, songs, startIndex)
    ensures |songs| > 0 && startIndex < 0 ==> r.queueIndex == 0
    ensures |songs| > 0 && startIndex >= |songs| ==> r.queueIndex == |songs| - 1
  {
    var i := if |songs| == 0 || startIndex < 0 then 0
             else if startIndex >= |songs| then |songs| - 1
             else startIndex;
    SetQueue(s, songs, i)
  }

  /** `reorderQueue` with an argument outside the queue: the splices clamp it,
      but the index rule uses it as given. Moving the first of two songs to
      2 leaves the index at 2; moving from -2 (the first song, counted from
      the end) lowers the index to -1. */
  lemma ReorderOutsideQueueDesyncs(a: Song, b: Song)
    ensures var s := SetQueue(Initial(), [a, b], 0);
      && Synced(s)
      && ReorderQueue(s, 0, 2).queue == [b, a]
      && ReorderQueue(s, 0, 2).queueIndex == 2
      && !Synced(ReorderQueue(s, 0, 2))
      && ReorderQueue(s, -2, 1).queue == [b, a]
      && ReorderQueue(s, -2, 1).queueIndex == -1
      && !Synced(ReorderQueue(s, -2, 1))
  {
  }

  /** `reorderQueue` whose index rule uses the positions the splices
      actually use, so the index follows the current song for every pair of
      arguments. */
  function ReorderQueueClamped(s: PlayerState, from: int, to: int): (r: PlayerState)
    requires 0 < |s.queue| && from < |s.queue|
    ensures Synced(s) ==> Synced(r)
    ensures r.queue == ReorderQueue(s, from, to).queue
    ensures r.currentSong == s.currentSong && SameSettings(s, r)
    ensures 0 <= from && 0 <= to < |s.queue| ==> r == ReorderQueue(s, from, to)
  {
    var n := |s.queue|;
    ReorderQueue(s, MoveFrom(from, n), MoveTo(to, n))
  }
}

=== FILE: player_lemmas.dfy ===
/**
 Properties of the queue reducer that relate several operations: the
 next/previous round trips, the toggles' cycles, the invariant over whole
 runs of actions, and the edge cases where the reducer leaves the queue
 invariant.
 */
module PlayerLemmas {
  import opened Common
  import opened Domain
  import opened Player

  // ---- next / previous ----

  /** Without shuffle, a move forward followed by a move back returns to the
      song that was current (the forward move rewinds, so "back" moves the
      index rather than restarting). */
  lemma NextThenPrevious(s: PlayerState, rnd: real)
    requires 0.0 <= rnd < 1.0
    requires Synced(s) && !s.shuffle && |s.queue| > 0
    requires s.queueIndex < |s.queue| - 1 || s.repeat == All
    ensures var r := SkipToPrevious(SkipToNext(s, rnd));
      r.queueIndex == s.queueIndex && r.currentSong == s.currentSong && r.currentPosition == 0
  {
  }

  /** Without shuffle and before the restart threshold, a move back followed
      by a move forward returns to the current song, provided that "forward"
      can wrap when "back" did. */
  lemma PreviousThenNext(s: PlayerState, rnd: real)
    requires 0.0 <= rnd < 1.0
    requires Synced(s) && !s.shuffle && |s.queue| > 0
    requires s.currentPosition <= RestartThreshold
    requires s.queueIndex > 0 || s.repeat == All
    ensures var r := SkipToNext(SkipToPrevious(s), rnd);
      r.queueIndex == s.queueIndex && r.currentSong == s.currentSong
  {
  }

  /** "Back" always wraps from the first song to the last, but "forward" wraps
      only under repeat-all: from the first of several songs with repeat off,
      back-then-forward stays on the last song. */
  lemma PreviousWrapsButNextDoesNot(s: PlayerState, rnd: real)
    requires 0.0 <= rnd < 1.0
    requires Synced(s) && !s.shuffle && |s.queue| > 1 && s.queueIndex == 0
    requires s.currentPosition <= RestartThreshold && s.repeat != All
    ensures var p := SkipToPrevious(s);
      p.queueIndex == |s.queue| - 1 && SkipToNext(p, rnd) == p
  {
  }

  /** The round trip stated for the queue: start at the middle of three songs,
      step back to the first, and step back again to wrap to the last. */
  lemma PreviousScenario(s: PlayerState, a: Song, b: Song, c: Song)
    requires s.currentPosition == 0
    ensures var t := SetQueue(s, [a, b, c], 1);
      && SkipToPrevious(t).currentSong == Some(a)
      && SkipToPrevious(SkipToPrevious(t)).currentSong == Some(c)
  {
  }

  // ---- toggles ----

  lemma ToggleShuffleInvolution(s: PlayerState)
    ensures ToggleShuffle(ToggleShuffle(s)) == s
  {
  }

  /** Repeat cycles off, one, all and back: three toggles are the identity
      and no fewer. */
  lemma ToggleRepeatCycle(s: PlayerState)
    ensures s.repeat == Off ==> ToggleRepeat(s).repeat == One
    ensures s.repeat == One ==> ToggleRepeat(s).repeat == All
    ensures s.repeat == All ==> ToggleRepeat(s).repeat == Off
    ensures ToggleRepeat(ToggleRepeat(s)) != s
    ensures ToggleRepeat(ToggleRepeat(ToggleRepeat(s))) == s
  {
  }

  // ---- the invariant over runs of actions ----

  /** The reducer's actions. */
  datatype Action =
    | SetCurrentSongAct(song: Song)
    | TogglePlayingAct
    | SetQueueAct(songs: seq<Song>, startIndex: int)
    | AddToQueueAct(song: Song)
    | PlayNextAct(song: Song)
    | RemoveFromQueueAct(index: int)
    | ClearQueueAct
    | SkipToNextAct(rnd: real)
    | SkipToPreviousAct
    | SkipToIndexAct(index: int)
    | ToggleShuffleAct
    | ToggleRepeatAct
    | ReorderQueueAct(from: int, to: int)
    | SetIsPlayingAct(playing: bool)
    | SetPositionAct(position: int)
    | SetDurationAct(duration: int)

  /** The uses that keep the queue invariant: `setCurrentSong` only with the
      song the index already points at, a start index inside the new queue,
      additions to a non-empty queue, removal at a non-negative index, a
      random draw from [0, 1), and reorders with both indices in range. Every
      other use of these actions is shown to break the invariant below or in
      `PlayerFixes`. */
  predicate Safe(s: PlayerState, a: Action)
  {
    match a
    case SetCurrentSongAct(song) => 0 <= s.queueIndex < |s.queue| && song == s.queue[s.queueIndex]
    case SetQueueAct(songs, i) => 0 <= i < |songs| || (|songs| == 0 && i == 0)
    case AddToQueueAct(_) => |s.queue| > 0
    case PlayNextAct(_) => |s.queue| > 0
    case RemoveFromQueueAct(i) => i >= 0
    case SkipToNextAct(rnd) => 0.0 <= rnd < 1.0
    case ReorderQueueAct(from, to) => 0 <= from < |s.queue| && 0 <= to < |s.queue|
    case _ => true
  }

  function Apply(s: PlayerState, a: Action): PlayerState
    requires Safe(s, a)
  {
    match a
    case SetCurrentSongAct(song) => SetCurrentSong(s, song)
    case TogglePlayingAct => TogglePlaying(s)
    case SetQueueAct(songs, i) => SetQueue(s, songs, i)
    case AddToQueueAct(song) => AddToQueue(s, song)
    case PlayNextAct(song) => PlayNext(s, song)
    case RemoveFromQueueAct(i) => RemoveFromQueue(s, i)
    case ClearQueueAct => ClearQueue(s)
    case SkipToNextAct(rnd) => SkipToNext(s, rnd)
    case SkipToPreviousAct => SkipToPrevious(s)
    case SkipToIndexAct(i) => SkipToIndex(s, i)
    case ToggleShuffleAct => ToggleShuffle(s)
    case ToggleRepeatAct => ToggleRepeat(s)
    case ReorderQueueAct(from, to) => ReorderQueue(s, from, to)
    case SetIsPlayingAct(b) => SetIsPlaying(s, b)
    case SetPositionAct(p) => SetPosition(s, p)
    case SetDurationAct(d) => SetDuration(s, d)
  }

  predicate SafeRun(s: PlayerState, acts: seq<Action>)
    decreases |acts|
  {
    |acts| == 0 || (Safe(s, acts[0]) && SafeRun(Apply(s, acts[0]), acts[1..]))
  }

  function Run(s: PlayerState, acts: seq<Action>): PlayerState
    requires SafeRun(s, acts)
    decreases |acts|
  {
    if |acts| == 0 then s else Run(Apply(s, acts[0]), acts[1..])
  }

  /** Every single safe action keeps the queue invariant. */
  lemma ApplyKeepsSynced(s: PlayerState, a: Action)
    requires Synced(s) && Safe(s, a)
    ensures Synced(Apply(s, a))
  {
  }

  /** Every state reached from a synced one by safe actions is synced: the
      current song is the one the index points at, and the index is in range
      whenever the queue is non-empty. */
  lemma {:induction false} RunKeepsSynced(s: PlayerState, acts: seq<Action>)
    requires Synced(s) && SafeRun(s, acts)
    ensures Synced(Run(s, acts))
    decreases |acts|
  {
    if |acts| > 0 {
      ApplyKeepsSynced(s, acts[0]);
      RunKeepsSynced(Apply(s, acts[0]), acts[1..]);
    }
  }

  lemma ReachableFromInitialIsSynced(acts: seq<Action>)
    requires SafeRun(Initial(), acts)
    ensures Synced(Run(Initial(), acts))
  {
    RunKeepsSynced(Initial(), acts);
  }

  // ---- where the reducer leaves the invariant ----

  /** Adding to an empty queue leaves the new song in the queue but nothing
      current: neither `addToQueue` nor `playNext` sets the current song. */
  lemma AddToEmptyQueueHasNoCurrentSong(s: PlayerState, song: Song)
    requires Synced(s) && |s.queue| == 0
    ensures AddToQueue(s, song).queue == [song] && AddToQueue(s, song).currentSong.None?
    ensures !Synced(AddToQueue(s, song))
    ensures PlayNext(s, song).queue == [song] && !Synced(PlayNext(s, song))
  {
  }

  /** `setCurrentSong` does not touch the queue or the index, so any song
      other than the one the index points at breaks the invariant, and so
      does any song at all on an empty queue. */
  lemma SetCurrentSongDesyncs(s: PlayerState, song: Song)
    requires Synced(s)
    requires |s.queue| == 0 || song != s.queue[s.queueIndex]
    ensures !Synced(SetCurrentSong(s, song))
  {
  }

  /** Emptying the queue does not stop playback: the transport flag survives
      both `clearQueue` and the removal of the last song. */
  lemma EmptyQueueKeepsPlaying(s: PlayerState)
    requires Synced(s) && s.isPlaying && |s.queue| == 1
    ensures var r := RemoveFromQueue(s, 0); |r.queue| == 0 && r.isPlaying
    ensures var r := ClearQueue(s); |r.queue| == 0 && r.isPlaying
  {
  }
}

=== FILE: playlists.dfy ===
/**
 The playlists store (`playlistsSlice` in `src/store/usePlaylistsStore.ts`).
 The clock is a parameter: `now` is the ISO timestamp and `id` the string of
 milliseconds that the source takes from `Date`. Every update acts on the
 first playlist with the given id only.
 */
module Playlists {
  import opened Common
  import opened Domain

  function FindPlaylist(ps: seq<Playlist>, id: string): (r: Option<nat>)
    ensures r.None? <==> NoPlaylist(ps, id)
    ensures r.Some? ==> FirstWithId(ps, id, r.value)
  {
    FirstIndex(ps, (p: Playlist) => p.id == id)
  }

  predicate NoPlaylist(ps: seq<Playlist>, id: string)
  {
    forall k :: 0 <= k < |ps| ==> ps[k].id != id
  }

  /** `ps[i]` is the playlist that `find(p => p.id === id)` returns. */
  predicate FirstWithId(ps: seq<Playlist>, id: string, i: int)
  {
    0 <= i < |ps| && ps[i].id == id && forall j :: 0 <= j < i ==> ps[j].id != id
  }

  /** `r` differs from `ps` at most at position `i`. */
  predicate OnlyChanged(ps: seq<Playlist>, r: seq<Playlist>, i: int)
  {
    |r| == |ps| && forall k :: 0 <= k < |ps| && k != i ==> r[k] == ps[k]
  }

  /** Applies `f` to the first playlist with the id, if any. */
  function UpdateFirst(ps: seq<Playlist>, id: string, f: Playlist -> Playlist): (r: seq<Playlist>)
    ensures NoPlaylist(ps, id) ==> r == ps
    ensures forall i :: FirstWithId(ps, id, i) ==> OnlyChanged(ps, r, i) && r[i] == f(ps[i])
  {
    match FindPlaylist(ps, id)
    case None => ps
    case Some(i) => ps[i := f(ps[i])]
  }

  /** `createPlaylist({name, description})`: appends an empty playlist whose
      two timestamps are the same instant. */
  function CreatePlaylist(ps: seq<Playlist>, name: string, description: Option<string>,
                          id: string, now: string): (r: seq<Playlist>)
    ensures |r| == |ps| + 1 && r[..|ps|] == ps
    ensures var p := r[|ps|];
      p.id == id && p.name == name && p.description == description && p.artwork.None?
      && p.songs == [] && p.createdAt == p.updatedAt == now
  {
    ps + [Playlist(id, name, description, None, [], now, now)]
  }

  /** `deletePlaylist(id)`: drops every playlist with the id. */
  function DeletePlaylist(ps: seq<Playlist>, id: string): (r: seq<Playlist>)
    ensures NoPlaylist(r, id)
    ensures forall k :: 0 <= k < |ps| && ps[k].id != id ==> ps[k] in r
    ensures forall k :: 0 <= k < |r| ==> r[k] in ps
    ensures NoPlaylist(ps, id) ==> r == ps
    ensures Subsequence(r, ps)
    ensures forall k :: 0 <= k < |ps| && ps[k].id != id ==> multiset(r)[ps[k]] == multiset(ps)[ps[k]]
  {
    var keep := (p: Playlist) => p.id != id;
    FilterIsSubsequence(ps, keep);
    FilterCounts(ps, keep);
    Filter(ps, keep)
  }

  /** Deleting a freshly created playlist restores the list, order included. */
  lemma CreateThenDelete(ps: seq<Playlist>, name: string, description: Option<string>,
                         id: string, now: string)
    requires NoPlaylist(ps, id)
    ensures DeletePlaylist(CreatePlaylist(ps, name, description, id, now), id) == ps
  {
    var created := Playlist(id, name, description, None, [], now, now);
    FilterConcat(ps, [created], (p: Playlist) => p.id != id);
  }

  /** `renamePlaylist({id, name})`. */
  function RenamePlaylist(ps: seq<Playlist>, id: string, name: string, now: string): (r: seq<Playlist>)
    ensures NoPlaylist(ps, id) ==> r == ps
    ensures forall i :: FirstWithId(ps, id, i) ==>
      OnlyChanged(ps, r, i) && r[i] == ps[i].(name := name, updatedAt := now)
  {
    UpdateFirst(ps, id, (p: Playlist) => p.(name := name, updatedAt := now))
  }

  /** The song list of `addSongToPlaylist`: the song is appended unless its
      id is there already, in which case the playlist is left as it is. */
  function WithSong(p: Playlist, song: Song, now: string): (r: Playlist)
    ensures HasId(p.songs, song.id) ==> r == p
    ensures !HasId(p.songs, song.id) ==>
      r == p.(songs := r.songs, updatedAt := now)
      && |r.songs| == |p.songs| + 1 && r.songs[..|p.songs|] == p.songs && r.songs[|p.songs|] == song
    ensures HasId(r.songs, song.id)
    ensures UniqueIds(p.songs) ==> UniqueIds(r.songs)
  {
    if FirstIndex(p.songs, (s: Song) => s.id == song.id).Some? then p
    else
      var songs := p.songs + [song];
      assert songs[|p.songs|].id == song.id;
      p.(songs := songs, updatedAt := now)
  }

  /** `addSongToPlaylist({playlistId, song})`. */
  function AddSongToPlaylist(ps: seq<Playlist>, playlistId: string, song: Song, now: string): (r: seq<Playlist>)
    ensures NoPlaylist(ps, playlistId) ==> r == ps
    ensures forall i :: FirstWithId(ps, playlistId, i) ==>
      OnlyChanged(ps, r, i) && r[i] == WithSong(ps[i], song, now)
    ensures forall k :: 0 <= k < |ps| && UniqueIds(ps[k].songs) ==> |r| == |ps| && UniqueIds(r[k].songs)
  {
    UpdateFirst(ps, playlistId, (p: Playlist) => WithSong(p, song, now))
  }

  /** The playlist of `removeSongFromPlaylist`: every song with the id is
      dropped, the others stay in order, and the playlist is stamped even
      when no song had the id. */
  function WithoutSong(p: Playlist, songId: string, now: string): (r: Playlist)
    ensures r == p.(songs := r.songs, updatedAt := now)
    ensures !HasId(r.songs, songId)
    ensures forall k :: 0 <= k < |p.songs| && p.songs[k].id != songId ==> p.songs[k] in r.songs
    ensures forall k :: 0 <= k < |r.songs| ==> r.songs[k] in p.songs
    ensures Subsequence(r.songs, p.songs)
    ensures forall k :: 0 <= k < |p.songs| && p.songs[k].id != songId ==>
      multiset(r.songs)[p.songs[k]] == multiset(p.songs)[p.songs[k]]
  {
    var keep := (s: Song) => s.id != songId;
    FilterIsSubsequence(p.songs, keep);
    FilterCounts(p.songs, keep);
    p.(songs := Filter(p.songs, keep), updatedAt := now)
  }

  /** `removeSongFromPlaylist({playlistId, songId})`. */
  function RemoveSongFromPlaylist(ps: seq<Playlist>, playlistId: string, songId: string,
                                  now: string): (r: seq<Playlist>)
    ensures NoPlaylist(ps, playlistId) ==> r == ps
    ensures forall i :: FirstWithId(ps, playlistId, i) ==>
      OnlyChanged(ps, r, i) && r[i] == WithoutSong(ps[i], songId, now)
  {
    UpdateFirst(ps, playlistId, (p: Playlist) => WithoutSong(p, songId, now))
  }

  /** `splice(from, 1)` finds a song to take out of the playlist being
      reordered: it has songs and `from` is not at or past the end. */
  predicate ValidMove(ps: seq<Playlist>, playlistId: string, from: int)
  {
    forall i :: 0 <= i < |ps| && FirstWithId(ps, playlistId, i) ==>
      0 < |ps[i].songs| && from < |ps[i].songs|
  }

  /** `reorderPlaylistSongs({playlistId, fromIndex, toIndex})`; both splices
      clamp their start, as in `reorderQueue`. */
  function ReorderPlaylistSongs(ps: seq<Playlist>, playlistId: string, from: int, to: int,
                                now: string): (r: seq<Playlist>)
    requires ValidMove(ps, playlistId, from)
    ensures NoPlaylist(ps, playlistId) ==> r == ps
    ensures forall i :: FirstWithId(ps, playlistId, i) ==>
      && OnlyChanged(ps, r, i)
      && r[i] == ps[i].(songs := r[i].songs, updatedAt := now)
      && |r[i].songs| == |ps[i].songs|
      && multiset(r[i].songs) == multiset(ps[i].songs)
      && r[i].songs[MoveTo(to, |ps[i].songs|)] == ps[i].songs[MoveFrom(from, |ps[i].songs|)]
      && RemoveAt(r[i].songs, MoveTo(to, |ps[i].songs|))
         == RemoveAt(ps[i].songs, MoveFrom(from, |ps[i].songs|))
  {
    match FindPlaylist(ps, playlistId)
    case None => ps
    case Some(i) =>
      var n := |ps[i].songs|;
      ps[i := ps[i].(songs := Move(ps[i].songs, MoveFrom(from, n), MoveTo(to, n)), updatedAt := now)]
  }

  /** `clearPlaylist(id)`. */
  function ClearPlaylist(ps: seq<Playlist>, id: string, now: string): (r: seq<Playlist>)
    ensures NoPlaylist(ps, id) ==> r == ps
    ensures forall i :: FirstWithId(ps, id, i) ==>
      OnlyChanged(ps, r, i) && r[i] == ps[i].(songs := [], updatedAt := now)
  {
    UpdateFirst(ps, id, (p: Playlist) => p.(songs := [], updatedAt := now))
  }
}

=== FILE: search.dfy ===
/**
 The recent-searches store (`searchSlice` in `src/store/useSearchStore.ts`):
 a most-recent-first list of trimmed queries, cut to a maximum length.
 */
module Search {
  import opened Common
  import opened Strings

  /** The initial and only value of `maxRecentSearches`. */
  const MaxRecentSearches: nat := 10

  datatype SearchState = SearchState(recentSearches: seq<string>, maxRecentSearches: nat)

  function Initial(): (s: SearchState)
    ensures s.recentSearches == [] && s.maxRecentSearches == MaxRecentSearches
  {
    SearchState([], MaxRecentSearches)
  }

  /** The entries other than `q`, in their order. */
  function Others(xs: seq<string>, q: string): (r: seq<string>)
    ensures q !in r
    ensures forall i :: 0 <= i < |xs| && xs[i] != q ==> xs[i] in r
    ensures forall i :: 0 <= i < |r| ==> r[i] in xs
    ensures Distinct(xs) ==> Distinct(r)
  {
    var keep := (x: string) => x != q;
    FilterKeepsDistinct(xs, keep);
    Filter(xs, keep)
  }

  /** The entries other than `q` keep their order and their number of
      occurrences. */
  lemma OthersInOrder(xs: seq<string>, q: string)
    ensures Subsequence(Others(xs, q), xs)
    ensures forall i :: 0 <= i < |xs| && xs[i] != q ==>
      multiset(Others(xs, q))[xs[i]] == multiset(xs)[xs[i]]
  {
    var keep := (x: string) => x != q;
    FilterIsSubsequence(xs, keep);
    FilterCounts(xs, keep);
  }

  /** `q` moved (or put) in front of `xs`, the list then cut to `max`
      entries by dropping the oldest. */
  function PushRecent(xs: seq<string>, q: string, max: nat): (r: seq<string>)
    ensures |r| <= max
    ensures max > 0 ==>
      var others := Others(xs, q);
      && |r| > 0 && r[0] == q
      && (forall i :: 0 < i < |r| ==> r[i] != q)
      && |r| == (if 1 + |others| > max then max else 1 + |others|)
      && r[1..] == others[..|r| - 1]
    ensures Distinct(xs) ==> Distinct(r)
  {
    var l := [q] + Others(xs, q);
    assert Distinct(xs) ==> Distinct(l);
    var kept := if |l| > max then l[..max] else l;
    assert Distinct(l) ==> Distinct(kept);
    kept
  }

  /** `addRecentSearch(raw)`: a blank query is ignored; otherwise the trimmed
      query moves (or goes) to the front and the list is cut to the maximum,
      dropping the oldest entries. */
  function AddRecentSearch(s: SearchState, raw: string): (r: SearchState)
    ensures r.maxRecentSearches == s.maxRecentSearches
    ensures Trim(raw) == "" ==> r == s
    ensures Trim(raw) != "" ==> |r.recentSearches| <= s.maxRecentSearches
    ensures Trim(raw) != "" && s.maxRecentSearches > 0 ==>
      var q := Trim(raw);
      var others := Others(s.recentSearches, q);
      && |r.recentSearches| > 0 && r.recentSearches[0] == q
      && (forall i :: 0 < i < |r.recentSearches| ==> r.recentSearches[i] != q)
      && |r.recentSearches| == (if 1 + |others| > s.maxRecentSearches then s.maxRecentSearches else 1 + |others|)
      && r.recentSearches[1..] == others[..|r.recentSearches| - 1]
    ensures Distinct(s.recentSearches) ==> Distinct(r.recentSearches)
  {
    var q := Trim(raw);
    if q == "" then s
    else s.(recentSearches := PushRecent(s.recentSearches, q, s.maxRecentSearches))
  }

  /** Pushing the same query twice in a row is pushing it once. */
  lemma PushTwiceIsPushOnce(xs: seq<string>, q: string, max: nat)
    ensures PushRecent(PushRecent(xs, q, max), q, max) == PushRecent(xs, q, max)
  {
    var r := PushRecent(xs, q, max);
    if max > 0 {
      var rest := r[1..];
      assert r == [q] + rest;
      assert Others(r, q) == Others(rest, q) == rest;
    }
  }

  /** Searching for the same query twice in a row is searching once. */
  lemma AddTwiceIsAddOnce(s: SearchState, raw: string)
    ensures AddRecentSearch(AddRecentSearch(s, raw), raw) == AddRecentSearch(s, raw)
  {
    PushTwiceIsPushOnce(s.recentSearches, Trim(raw), s.maxRecentSearches);
  }

  /** `removeRecentSearch(query)`: drops every entry equal to the query as
      given; no trimming. */
  function RemoveRecentSearch(s: SearchState, query: string): (r: SearchState)
    ensures r.maxRecentSearches == s.maxRecentSearches
    ensures query !in r.recentSearches
    ensures forall i :: 0 <= i < |s.recentSearches| && s.recentSearches[i] != query ==>
      s.recentSearches[i] in r.recentSearches
    ensures forall i :: 0 <= i < |r.recentSearches| ==> r.recentSearches[i] in s.recentSearches
    ensures Distinct(s.recentSearches) ==> Distinct(r.recentSearches)
    ensures Subsequence(r.recentSearches, s.recentSearches)
    ensures forall i :: 0 <= i < |s.recentSearches| && s.recentSearches[i] != query ==>
      multiset(r.recentSearches)[s.recentSearches[i]] == multiset(s.recentSearches)[s.recentSearches[i]]
  {
    OthersInOrder(s.recentSearches, query);
    s.(recentSearches := Others(s.recentSearches, query))
  }

  /** `clearRecentSearches()`. */
  function ClearRecentSearches(s: SearchState): (r: SearchState)
    ensures r.recentSearches == [] && r.maxRecentSearches == s.maxRecentSearches
  {
    s.(recentSearches := [])
  }
}

=== FILE: strings.dfy ===
/**
 The two JavaScript string operations the stores and mappers rely on:
 `String.prototype.trim` and the first piece of `String.prototype.split`.
 */
module Strings {

  /** ECMAScript's WhiteSpace and LineTerminator code points, the set that
      `trim` strips from both ends. */
  const SpaceChars: set<char> := {
    ' ', '\t', '\n', '\r', '\U{000B}', '\U{000C}', '\U{00A0}', '\U{1680}',
    '\U{2000}', '\U{2001}', '\U{2002}', '\U{2003}', '\U{2004}', '\U{2005}',
    '\U{2006}', '\U{2007}', '\U{2008}', '\U{2009}', '\U{200A}',
    '\U{2028}', '\U{2029}', '\U{202F}', '\U{205F}', '\U{3000}', '\U{FEFF}'}

  predicate IsSpace(c: char)
  {
    c in SpaceChars
  }

  /** `s` without its leading white space: a suffix of `s`. */
  function TrimStart(s: string): (r: string)
    ensures |r| <= |s| && r == s[|s| - |r|..]
    ensures forall i :: 0 <= i < |s| - |r| ==> IsSpace(s[i])
    ensures |r| > 0 ==> !IsSpace(r[0])
  {
    if |s| > 0 && IsSpace(s[0]) then TrimStart(s[1..]) else s
  }

  /** `s` without its trailing white space: a prefix of `s`. */
  function TrimEnd(s: string): (r: string)
    ensures |r| <= |s| && r == s[..|r|]
    ensures forall i :: |r| <= i < |s| ==> IsSpace(s[i])
    ensures |r| > 0 ==> !IsSpace(r[|r| - 1])
  {
    if |s| > 0 && IsSpace(s[|s| - 1]) then TrimEnd(s[..|s| - 1]) else s
  }

  /** `s.trim()`: white space dropped from both ends. */
  function Trim(s: string): (r: string)
    ensures |r| <= |s|
    ensures |r| > 0 ==> !IsSpace(r[0]) && !IsSpace(r[|r| - 1])
  {
    var t := TrimStart(s);
    var r := TrimEnd(t);
    assert |r| > 0 ==> r[0] == t[0];
    r
  }

  /** A string trims to nothing exactly when it is all white space. */
  lemma TrimEmptyIff(s: string)
    ensures Trim(s) == "" <==> forall i :: 0 <= i < |s| ==> IsSpace(s[i])
  {
    var t := TrimStart(s);
    if Trim(s) == "" {
      assert t == "";
    }
  }

  /** Every character `trim` keeps comes from its input: the kept part is
      a prefix of a suffix of `s`. */
  lemma TrimDrawsFromInput(s: string)
    ensures forall i :: 0 <= i < |Trim(s)| ==> Trim(s)[i] in s
  {
    var t := TrimStart(s);
    var r := TrimEnd(t);
    var k := |s| - |t|;
    assert r == Trim(s);
    forall i | 0 <= i < |r|
      ensures r[i] in s
    {
      assert r[i] == t[i];
      assert t[i] == s[k + i];
    }
  }

  /** `trim` is pinned down by where the kept part starts and ends: if
      everything before `k` and from `m` on is white space, and the slice
      `s[k..m]` is empty or begins and ends with a character that is not,
      then that slice is what `trim` returns. */
  lemma TrimIsSlice(s: string, k: nat, m: nat)
    requires k <= m <= |s|
    requires forall i :: 0 <= i < k ==> IsSpace(s[i])
    requires forall i :: m <= i < |s| ==> IsSpace(s[i])
    requires k < m ==> !IsSpace(s[k]) && !IsSpace(s[m - 1])
    ensures Trim(s) == s[k..m]
  {
    if k == m {
      TrimEmptyIff(s);
    } else {
      var t := TrimStart(s);
      assert t == s[k..];
      var r := TrimEnd(t);
      var n := m - k;
      assert r == t[..n];
    }
  }

  /** Trimming twice is trimming once. */
  lemma TrimIdempotent(s: string)
    ensures Trim(Trim(s)) == Trim(s)
  {
    var r := Trim(s);
    assert TrimStart(r) == r;
    assert TrimEnd(r) == r;
  }

  /** `s.split(sep)[0]`: everything before the first `sep`, or all of `s`. */
  function FirstSegment(s: string, sep: char): (r: string)
    ensures |r| <= |s| && r == s[..|r|]
    ensures sep !in r
    ensures |r| < |s| ==> s[|r|] == sep
  {
    if |s| == 0 || s[0] == sep then "" else [s[0]] + FirstSegment(s[1..], sep)
  }
}

=== FILE: theme.dfy ===
/**
 The theme store (`themeSlice` in `src/store/useThemeStore.ts`): the chosen
 mode and the derived dark flag.
 */
module Theme {

  datatype ThemeMode = Light | Dark | System

  datatype ThemeState = ThemeState(themeMode: ThemeMode, isDark: bool)

  /** The dark flag is exactly "the mode is dark". */
  predicate Valid(t: ThemeState)
  {
    t.isDark == (t.themeMode == Dark)
  }

  function Initial(): (t: ThemeState)
    ensures Valid(t) && t.themeMode == Light
  {
    ThemeState(Light, false)
  }

  /** `setThemeMode(mode)`. */
  function SetThemeMode(t: ThemeState, m: ThemeMode): (r: ThemeState)
    ensures r.themeMode == m
    ensures Valid(r)
  {
    ThemeState(m, m == Dark)
  }

  /** `toggleTheme()`: light goes to dark, and both dark and system go to
      light. */
  function ToggleTheme(t: ThemeState): (r: ThemeState)
    ensures t.themeMode == Light ==> r.themeMode == Dark && r.isDark
    ensures t.themeMode != Light ==> r.themeMode == Light && !r.isDark
    ensures Valid(r)
  {
    var m := if t.themeMode == Light then Dark else Light;
    ThemeState(m, m == Dark)
  }

  /** Toggling twice is the identity from light or dark, but takes system to
      dark. */
  lemma ToggleTwice(t: ThemeState)
    requires Valid(t)
    ensures t.themeMode != System ==> ToggleTheme(ToggleTheme(t)) == t
    ensures t.themeMode == System ==> ToggleTheme(ToggleTheme(t)) == ThemeState(Dark, true)
  {
  }
}
